=== FILE: README.md ===
# trezor-chat, modelled in Dafny

trezor-chat is a browser application in which two people who each hold a Trezor
hardware wallet chat peer to peer. Each party signs the fixed challenge
`I wanna chat!` with a receive address of their wallet. The signed claim carries a
session id `<network>-<word>-<suffix>`. The starting party shares a link carrying
that id, the joining party dials it, both exchange their claims over the data
connection, and each asks its own wallet to verify the other's signature.

This project models the core of the React client and the Vue error composable as
pure step functions over immutable state records:

- `Chat` (chat.dfy): the chat component's state machine. It covers peer and
  connection events, the frames exchanged (`message`, `action`, `identification`),
  the typing indicator and its timeout, the wallet device events, and the
  `verifyMessage` round trip.
- `ChatProperties` (chat_properties.dfy): invariants kept over any run of events,
  traces against reference definitions, and the two-party handshake.
- `Authenticate` (authenticate.dfy): the device list, account resolution from a
  BIP-32 path, fresh-address paths, and the signed claim.
- `App` (index.dfy): the top-level component: the joiner role and network read from
  the link, screen selection, the share link, and the self-clearing error banner.
- `ErrorHandling` (error_handling.dfy): the Vue client's debounced error.
- Supporting modules: `Strings` (JavaScript `split`), `JsNumbers` (`parseInt` and
  number-to-string), `Urls` (`location.search` and `URLSearchParams.get`),
  `SessionIds`, `Types`, `Wrappers`.

Wallet calls (`getAccountInfo`, `getAddress`, `signMessage`, `verifyMessage`) are
oracles: the model records the request it would send and consumes a reply given as
an event. A reply is `Success`, `Failure` (the `success: false` payload) or `Thrown`
(the promise rejects). Timers are tokens: arming one hands out a fresh number,
clearing forgets it, and a firing carries its token. So a cleared timeout that
fires changes nothing.

The model follows the code in these places, where the application's structure might suggest otherwise:

- An `identification` frame sets the guest's status back to `pending` even when it
  was already `valid`. Verification is not sticky (`ChatProperties.ValidIsNotSticky`).
- Both parties send `requestIdentification` when their connection opens, not only
  the joiner.
- The empty-draft check in `sendMessage` is `!message`. A draft of spaces is sent.
- The starting party's chat component receives the chat id read from its own page
  address, which is `""`. It never dials, so this has no effect.
- The handler of a finished sign-in is not guarded by the screen. A claim that
  arrives after the chat is prepared replaces the identification and, for the
  starting party, appends another `c` parameter to the share link.

## Model

| member | source | states |
|---|---|---|
| Chat.Initial | src/client/react/components/Chat.tsx:28-52 | On mount nothing is connected, every log is empty, the draft is empty, no typing timeout is pending, nothing is in flight, the guest is unverified and the wallet is assumed present at the claim's device path |
| Chat.OnPeerOpen | src/client/react/components/Chat.tsx:96-102 | The joining party dials the chat id with its own claim as metadata; the starting party only starts listening; a repeated open changes nothing |
| Chat.OnPeerError | src/client/react/components/Chat.tsx:131-133 | Once listeners are registered, a peer error is reported by its type and nothing else changes |
| Chat.OnIncoming | src/client/react/components/Chat.tsx:135-138 | Once its peer is open, the starting party takes every incoming connection as its current one, replacing any earlier one; before that, and for the joining party, nothing changes; nothing but the connection ever changes |
| Chat.OnOpen | src/client/react/components/Chat.tsx:162-165 | Opening the connection marks it connected and sends exactly one identification request |
| Chat.OnClose | src/client/react/components/Chat.tsx:174-177 | Closing marks the connection down and clears the other party's typing flag, keeping the connection and the logs |
| Chat.ValidationEffect | src/client/react/components/Chat.tsx:239-250 | A verification request is issued exactly when a guest claim is stored, its status is pending and the wallet is present; it asks to check the guest's own address and signature against the challenge on this chat's network |
| Chat.OnAction | src/client/react/components/Chat.tsx:205-237 | startTyping and endTyping set the typing flag; requestIdentification answers with this party's claim; any other action changes nothing |
| Chat.OnIdentification | src/client/react/components/Chat.tsx:194-197 | A received claim becomes the guest with status pending, and is sent for verification when the wallet is present |
| Chat.OnData | src/client/react/components/Chat.tsx:186-203 | A message frame appends the other party's text to the log; an unknown frame and a frame without a connection change nothing |
| Chat.TypingEffect | src/client/react/components/Chat.tsx:277-290 | Each draft change cancels the pending typing timeout; with a connection a non-empty draft announces typing and a fresh timeout is armed |
| Chat.SetDraft | src/client/react/components/Chat.tsx:277-290 | Setting the same draft changes nothing; a different draft runs the typing effect |
| Chat.OnSendMessage | src/client/react/components/Chat.tsx:112-124 | Nothing happens exactly when the draft is empty or there is no connection; otherwise the text and an end-of-typing action go out in order, the text joins the log as this party's and the draft is cleared |
| Chat.OnTypingTimer | src/client/react/components/Chat.tsx:286-289 | Only the pending typing timeout announces the end of typing; a cancelled one changes nothing |
| Chat.OnDevice | src/client/react/components/Chat.tsx:54-76 | CONNECT of this claim's device records the device path and marks the wallet present, re-running verification only when it was absent; DISCONNECT of it with a path marks it absent; other devices and events change nothing; chat state is untouched |
| Chat.OnVerifyReply | src/client/react/components/Chat.tsx:251-263 | Success marks the guest valid; a failure reports its error and marks it invalid; a rejection reports its message and keeps the status |
| Chat.Step | src/client/react/components/Chat.tsx:96-290 | Every event only appends to the message log, the outbox, the verification requests and the error log; an open peer stays open; a connection is never lost and is set only by an incoming connection or by the peer opening; the only error raised is one the event carries |
| ChatProperties.InitialInv | src/client/react/components/Chat.tsx:28-52 | The initial state satisfies the chat invariant |
| ChatProperties.StepKeepsInv | src/client/react/components/Chat.tsx:96-290 | Every event keeps the invariant: a connection needs an open peer, the joiner's connection is to the chat id, guest and status agree, a verdict needs a request, every request is for the challenge on this network |
| ChatProperties.RunKeepsInv | src/client/react/components/Chat.tsx:96-290 | Any run of events from an invariant state keeps the invariant |
| ChatProperties.RunGrows | src/client/react/components/Chat.tsx:131-263 | Over any run the logs only grow, an open peer stays open, a connection is never lost, and the joining party's connection, once its peer is open, is never replaced |
| ChatProperties.RemoteLogTrace | src/client/react/components/Chat.tsx:186-203 | Once connected, the other party's messages in the log are exactly the texts of the message frames received, in order |
| ChatProperties.LogTrace | src/client/react/components/Chat.tsx:112-203 | Once connected, the log after any run is the log before plus a reference transcript: the other party's message frames and this party's non-empty sends, in event order, with the draft tracked through edits and sends; the texts sent in message frames grow by exactly this party's entries of that transcript |
| ChatProperties.SentAreOwn | src/client/react/components/Chat.tsx:112-124 | Over any run, the texts this party sent in message frames are exactly its own log entries, in order |
| ChatProperties.TypingFlagTrace | src/client/react/components/Chat.tsx:174-177 | Once connected, the typing flag equals a reference fold over the events: the last startTyping, endTyping or close decides it |
| ChatProperties.OnlyLatestTimeoutEndsTyping | src/client/react/components/Chat.tsx:286-289 | Any typing timeout other than the one armed last changes nothing when it fires |
| ChatProperties.TypingDebounce | src/client/react/components/Chat.tsx:277-290 | A draft change makes every earlier typing timeout harmless; with a connection the timeout it arms sends exactly one endTyping when it fires; without one none is armed |
| ChatProperties.StaleTypingFiringsSendNothing | src/client/react/components/Chat.tsx:277-290 | Any number of superseded typing timeouts firing leave the state, and so the outbox, unchanged |
| ChatProperties.ValidNeedsSuccess | src/client/react/components/Chat.tsx:251-258 | The guest becomes valid during a run only if some event in it is a successful verification reply |
| ChatProperties.StepVerifyGate | src/client/react/components/Chat.tsx:267-275 | Any event that adds a verification request adds exactly one, while a guest is stored, pending and the wallet present, and it is for that guest's address and signature |
| ChatProperties.ValidIsNotSticky | src/client/react/components/Chat.tsx:194-197 | A valid guest that sends another claim goes back to pending with the new claim |
| ChatProperties.Handshake | src/client/react/components/Chat.tsx:96-237 | After open, accept or dial, connection open and the two frames, both parties are connected, each has sent a request and its claim, holds the other's claim as pending guest, and has asked its wallet to verify the other's signature |
| Authenticate.GetAccountType | src/client/react/components/Authenticate.tsx:75-91 | The four purpose fields 44, 48, 49 and 84 map to their account types and back; every other string is Unknown |
| Authenticate.ResolveAccount | src/client/react/components/Authenticate.tsx:93-104 | Resolution fails, with the TypeError message, exactly when the path has fewer than two apostrophes; otherwise the account keeps the path |
| Authenticate.ResolveHardenedPath | src/client/react/components/Authenticate.tsx:93-104 | The hardened path m/P'/C'/A' resolves to the account type of P and the 1-based account number A + 1 |
| Authenticate.FreshAddressPath | src/client/react/components/Authenticate.tsx:144 | The / pieces of a fresh path are the account path's pieces, then 0, then the decimal text of the next index |
| Authenticate.NextAddressIndex | src/client/react/components/Authenticate.tsx:133-142 | The next index is 0 without a previous address or when its path is empty; for a one-piece path it is that text parsed and incremented |
| Authenticate.NextIndexAfterPath | src/client/react/components/Authenticate.tsx:133-142 | When the last used address's path ends in the decimal index k, the next index is k + 1 |
| Authenticate.FreshPathsAdvance | src/client/react/components/Authenticate.tsx:131-144 | Recording the address fetched at the fresh path moves the next index on by one |
| Authenticate.RemoveDevice | src/client/react/components/Authenticate.tsx:56-58 | The filtered list holds exactly the devices with another id, each as often as before; an empty list stays empty and a single device is kept exactly when its id differs |
| Authenticate.RemoveDeviceAppend | src/client/react/components/Authenticate.tsx:56-58 | Filtering a concatenation is the concatenation of the filtered parts, so the kept devices stay in their order |
| Authenticate.OnDeviceEvent | src/client/react/components/Authenticate.tsx:36-65 | CONNECT appends the device and selects it when none is selected; DISCONNECT leaves exactly the filtered list without that id and forgets selection, addresses, account and chosen address; other events change nothing |
| Authenticate.SelectAccountRequest | src/client/react/components/Authenticate.tsx:106-115 | The account request is for this network and names the chosen device's path, and no path when no device is chosen |
| Authenticate.OnAccountInfo | src/client/react/components/Authenticate.tsx:116-128 | A non-empty path resolves into the account, or reports the resolution error; an empty path is ignored; failures and rejections report their message and change nothing |
| Authenticate.NewAddressRequest | src/client/react/components/Authenticate.tsx:131-153 | The address request is for this network, the chosen device's path (none without a device) and the fresh path, which is the account path plus /0/0 when no address is used |
| Authenticate.OnAddressReply | src/client/react/components/Authenticate.tsx:154-167 | A fetched address becomes the chosen one and nothing else changes; a failure changes nothing and reports the payload's error, a rejection changes nothing and reports its message |
| Authenticate.PickUsedAddress | src/client/react/components/Authenticate.tsx:274-286 | A click selects an address only when it is in the used-address list |
| Authenticate.FreshAddressNeverAdvances | src/client/react/components/Authenticate.tsx:61 | From an empty list, any run of events leaves the used-address list empty, so every fresh address requested is index 0 |
| Authenticate.OnAddressReplyRecorded | src/client/react/components/Authenticate.tsx:154-163 | A fetched address is chosen and also appended to the used addresses; errors behave as in the source |
| Authenticate.FetchesAdvance | src/client/react/components/Authenticate.tsx:131-163 | With fetched addresses recorded, n fetches in a row move the fresh index on by n |
| Authenticate.SubmitRequest | src/client/react/components/Authenticate.tsx:170-183 | Nothing is signed without a chosen address; otherwise the challenge is signed on this network with the chosen address's path on the chosen device's path |
| Authenticate.OnSigned | src/client/react/components/Authenticate.tsx:184-201 | A signed challenge yields a claim with the signer's address and signature, the role flag, the device, and a session id whose network tag names this network; a failure yields the payload's error and a rejection its message |
| SessionIds.NetworkOfSessionId | src/client/react/components/Authenticate.tsx:190 | Reading the network back from a session id gives the network it was built for |
| SessionIds.NetworkOfId | src/client/react/Index.tsx:50-56 | The network is mainnet exactly when the id is BTC or starts with BTC- |
| App.Init | src/client/react/Index.tsx:19-22 | The chat id is the c parameter of the page address; the party joins exactly when it is non-empty, and then on the network the id names |
| App.ExactlyOneScreen | src/client/react/Index.tsx:88-113 | Once the wallet library is ready, exactly one of network choice, authentication and chat shows |
| App.Authenticated | src/client/react/Index.tsx:62-75 | A starting party's address gains the c parameter; a joiner's is kept; the claim is stored and the chat prepared |
| App.AppStep | src/client/react/Index.tsx:26-75 | Every event keeps the app invariant and the role; a network chosen on its screen is taken, a known network never changes, and an authentication result is applied whenever the library is ready and a network is known, even after the chat is prepared |
| App.InitInv | src/client/react/Index.tsx:19-56 | The opening state satisfies the app invariant |
| App.JoinLink | src/client/react/Index.tsx:62-75 | A party opening the starting party's updated address joins that party's session id on the same network |
| App.ReportError | src/client/react/Index.tsx:42-48 | A new message is shown and replaces the pending clear with a fresh one; the same message again changes nothing |
| App.ClearFired | src/client/react/Index.tsx:42-48 | Only the pending clear acts: it empties the banner and, if that changed it, arms another clear |
| App.SupersededClearIsHarmless | src/client/react/Index.tsx:42-48 | The clear of an earlier message never empties a later one |
| Urls.ShareUrlRoundTrip | src/client/react/Index.tsx:19-21 | Reading c from the share link gives back exactly the id appended to an address without c, fragment or bare ? |
| Urls.FirstValueAppend | src/client/react/Index.tsx:20 | The first value for a key in two lists of pairs is the first list's, or failing that the second's |
| Urls.QueryGet | src/client/react/Index.tsx:19-21 | A value is found exactly when some non-empty pair of the query is named by the key, and it is the value of such a pair |
| Urls.ShareUrl | src/client/react/Index.tsx:64-70 | The share link is the current address, then `&` when it has a query and `?` otherwise, then c= and the id |
| ErrorHandling.HandleError | src/client/vue/composables/errorHandling.ts:12-22 | The error shows at once and the pending timeout is replaced by exactly one fresh timeout |
| ErrorHandling.Fire | src/client/vue/composables/errorHandling.ts:19-21 | Only the live timeout clears the error; a cancelled one changes nothing |
| ErrorHandling.Step | src/client/vue/composables/errorHandling.ts:12-22 | Every event keeps the invariant; a report shows its message at once; a firing shows no new message |
| ErrorHandling.SupersededNeverClears | src/client/vue/composables/errorHandling.ts:15-17 | The timeout of a superseded error never clears the newer one |
| ErrorHandling.ShownIsLastReported | src/client/vue/composables/errorHandling.ts:12-22 | After any run, the shown error is nothing or the one reported last |
| ErrorHandling.StaleFiringsKeepError | src/client/vue/composables/errorHandling.ts:15-21 | Firings of other timeouts leave the shown error and its timeout untouched |
| JsNumbers.ParseIntToString | src/client/react/components/Authenticate.tsx:141 | parseInt reads back every integer from its decimal text |
| JsNumbers.ParseIntReads | src/client/react/components/Authenticate.tsx:140-142 | Text without a decimal digit parses to NaN; text that starts with a decimal digit and no 0x prefix reads its longest run of decimal digits |
| JsNumbers.ToString | src/client/react/components/Authenticate.tsx:144 | NaN renders as NaN; a number renders as decimal digits, after a minus sign when negative; the text never holds a / |
| Strings.SplitCount | src/client/react/components/Authenticate.tsx:94 | A string splits into one piece more than it has separators |
| Strings.JoinSplit | src/client/react/components/Authenticate.tsx:137 | Joining the pieces of a split with its separator gives the string back |
| Strings.SplitConcat | src/client/react/components/Authenticate.tsx:137 | Splitting a + sep + b gives the pieces of a followed by the pieces of b |

## Left out

- Rendering: the JSX, the partial components and their styling are not modelled.
- PeerJS transport: the `Peer` object, its server configuration from environment variables, delivery and ordering of frames are replaced by events; the model records sent frames in an outbox.
- Wallet library calls (`TrezorConnect.*`) are oracles: requests are recorded and replies arrive as events; `TrezorConnect.init` is the `InitResolved`/`InitRejected` pair.
- Replies are not matched to the request they answer: the chat counts unsettled verification requests and applies any reply while one is open.
- `faker` words in the session id are parameters.
- `window.history.replaceState` is modelled as replacing the stored address; percent-decoding and `+` in query strings are not modelled, and a fragment is only cut off when reading the query.
- The `beforeunload` listener and `remoteConnection.close()` on unload are not modelled.
- React mechanics: batched renders, refs and stale closures. Authenticate's `if (!device)` inside a listener registered once reads the first render's `device`; the model reads the current selection instead.
- `TrezorConnect.off` after a successful verification (Chat.tsx:259) passes a new closure, so it removes nothing; the model keeps processing device events, as the code does.
- A repeated peer `open` changes nothing; the code would register its listeners again.
- The outbox is one list for all connections: it does not record which connection a frame went over, so frames sent before the starting party's connection was replaced stay in it.
- Chat.OnData: open, close and data events without a connection change nothing; the code cannot deliver them, since listeners exist only on a connection.
- JsNumbers.ParseInt, JsNumbers.ToString: unbounded integers, without the float rounding of values beyond 2^53 and without the exponent form `String()` uses from 1e21 on (`1e+21`).
- Authenticate.ResolveAccount: the TypeError message is one engine's wording.
- The typing delay (800 ms) and the clear delays (5000 ms) are not modelled; time is only the order of timer-firing events.
- Urls.ShareUrlRoundTrip: requires an address without a fragment or a bare trailing `?`, since the source appends after the fragment and would then lose the parameter.
- src/client/react/components/NetworkSelect.tsx and the partials are not part of this model beyond the choice event.

## Findings

| source | as written | input that shows it | evidently intended | confidence | as-written member | corrected member |
|---|---|---|---|---|---|---|
| src/client/react/components/Authenticate.tsx:154-163 | A fetched address is only selected; `addresses` is never appended to and is only reset (line 61), so the used-address list stays empty and the fresh index stays 0 | Press "Use fresh address" twice after an account is found: both requests use path `<account>/0/0` | One reading: the fetched address is recorded as used, so the next fresh address gets the next index. The account-info request asks for token details with used tokens (lines 112-114), so the list may instead have been meant to come from that reply; either way the index was evidently meant to advance | not executed | Authenticate.FreshAddressNeverAdvances | Authenticate.FetchesAdvance |

=== FILE: authenticate.dfy ===
/**
 * The wallet-facing half of the application (src/client/react/components/Authenticate.tsx):
 * the connected-device list, the account found on a device, the choice of a
 * receive address, and the signed identity claim that starts or joins a chat.
 * Wallet calls are oracles: the model emits the request and consumes the reply.
 */
module Authenticate {
  import opened Wrappers
  import opened Strings
  import opened JsNumbers
  import opened Types
  import opened SessionIds

  /** The account types distinguished by the purpose field of a BIP-32 path. */
  datatype AccountType = Legacy | LegacyMultisig | LegacySegWit | NativeSegWit | Unknown

  /** The text shown for an account type. */
  function Label(t: AccountType): string
  {
    match t
    case Legacy => "Legacy"
    case LegacyMultisig => "Legacy multisig"
    case LegacySegWit => "Legacy SegWit"
    case NativeSegWit => "Native SegWit"
    case Unknown => "Unknown"
  }

  /** The purpose field that selects each known account type (BIP-44, BIP-48, BIP-49, BIP-84). */
  function Purpose(t: AccountType): Option<string>
  {
    match t
    case Legacy => Some("44")
    case LegacyMultisig => Some("48")
    case LegacySegWit => Some("49")
    case NativeSegWit => Some("84")
    case Unknown => None
  }

  /**
   * The account type of a purpose field. It inverts `Purpose`: a known type is
   * returned exactly for its own purpose string, and every other string is Unknown.
   */
  function GetAccountType(purpose: string): (t: AccountType)
    ensures t != Unknown <==> purpose in {"44", "48", "49", "84"}
    ensures t != Unknown ==> Purpose(t) == Some(purpose)
    ensures forall k: AccountType :: Purpose(k) == Some(purpose) ==> t == k
  {
    if purpose == "44" then Legacy
    else if purpose == "48" then LegacyMultisig
    else if purpose == "49" then LegacySegWit
    else if purpose == "84" then NativeSegWit
    else Unknown
  }

  /** `parts[i]`, or None where JavaScript yields `undefined`. */
  function At(parts: seq<string>, i: nat): (r: Option<string>)
    ensures r.Some? <==> i < |parts|
  {
    if i < |parts| then Some(parts[i]) else None
  }

  /** The message of the TypeError thrown by `undefined.split(...)` (engine-specific wording). */
  const SPLIT_OF_UNDEFINED: string := "Cannot read properties of undefined (reading 'split')"

  /**
   * `resolveAccount(path)`: split the path at `'`; the purpose is the second `/` piece of
   * the first part and the account number the second `/` piece of the third part, plus one.
   * A path with fewer than two `'` has no third part and throws.
   */
  function ResolveAccount(path: string): (r: Result<Account>)
    ensures r.Err? <==> multiset(path)['\''] < 2
    ensures r.Err? ==> r.message == SPLIT_OF_UNDEFINED
    ensures r.Ok? ==> r.value.path == path
  {
    var parts := Split(path, '\'');
    SplitCount(path, '\'');
    if |parts| < 3 then Err(SPLIT_OF_UNDEFINED)
    else Ok(Account(path, AccountNumber(parts[2]), Label(PurposeType(parts[0]))))
  }

  /** The account type named by the second `/` piece of the text before the first `'`. */
  function PurposeType(head: string): AccountType
  {
    match At(Split(head, '/'), 1)
    case None => Unknown
    case Some(p) => GetAccountType(p)
  }

  /** The 1-based account number: the second `/` piece of the third `'` part, parsed, plus one. */
  function AccountNumber(part: string): JsNumber
  {
    match At(Split(part, '/'), 1)
    case None => NaN
    case Some(i) => Inc(ParseInt(i))
  }

  /** No `'` and no `/` in a path component. */
  predicate PlainComponent(s: string)
  {
    '\'' !in s && '/' !in s
  }

  /** The hardened three-level account path `m/<purpose>'/<coin>'/<index>'`. */
  function HardenedPath(purpose: string, coin: string, index: string): string
  {
    "m/" + purpose + "'/" + coin + "'/" + index + "'"
  }

  /**
   * A hardened path `m/P'/C'/A'` with a decimal account index A resolves to the
   * type of purpose P and the 1-based account number A + 1, keeping the path verbatim.
   */
  lemma ResolveHardenedPath(purpose: string, coin: string, index: string)
    requires PlainComponent(purpose) && PlainComponent(coin) && PlainComponent(index)
    requires |index| >= 1 && AllDigitsIn(index, 10)
    ensures ResolveAccount(HardenedPath(purpose, coin, index))
      == Ok(Account(HardenedPath(purpose, coin, index), Num(DigitsValue(index, 10) + 1),
                    Label(GetAccountType(purpose))))
  {
    HardenedParts(purpose, coin, index);
    PurposeOfHead(purpose);
    NumberOfIndexPart(index);
  }

  lemma PurposeOfHead(purpose: string)
    requires PlainComponent(purpose)
    ensures PurposeType("m/" + purpose) == GetAccountType(purpose)
  {
    assert "m/" + purpose == "m" + "/" + purpose;
    SecondSlashPiece("m", purpose);
  }

  lemma NumberOfIndexPart(index: string)
    requires PlainComponent(index) && |index| >= 1 && AllDigitsIn(index, 10)
    ensures AccountNumber("/" + index) == Num(DigitsValue(index, 10) + 1)
  {
    ParseDecimalDigits(index);
    LeadingSlashPieces(index);
    assert At(Split("/" + index, '/'), 1) == Some(index);
  }

  /** The `'`-pieces of a hardened three-level path. */
  lemma HardenedParts(purpose: string, coin: string, index: string)
    requires PlainComponent(purpose) && PlainComponent(coin) && PlainComponent(index)
    ensures Split(HardenedPath(purpose, coin, index), '\'') == ["m/" + purpose, "/" + coin, "/" + index, ""]
  {
    var a, b, c := "m/" + purpose, "/" + coin, "/" + index;
    assert HardenedPath(purpose, coin, index) == a + ['\''] + b + ['\''] + c + ['\''];
    TerminatedPieces(a, b, c, '\'');
  }

  /** Three separator-free pieces, each followed by the separator, split into the pieces and a final "". */
  lemma TerminatedPieces(a: string, b: string, c: string, q: char)
    requires q !in a && q !in b && q !in c
    ensures Split(a + [q] + b + [q] + c + [q], q) == [a, b, c, ""]
  {
    var t3 := c + [q] + "";
    var t2 := b + [q] + t3;
    assert a + [q] + b + [q] + c + [q] == a + [q] + t2;
    assert Split("", q) == [""];
    SplitNoSeparator(c, q);
    SplitConcat(c, "", q);
    assert Split(t3, q) == [c, ""];
    SplitNoSeparator(b, q);
    SplitConcat(b, t3, q);
    assert Split(t2, q) == [b, c, ""];
    SplitNoSeparator(a, q);
    SplitConcat(a, t2, q);
  }

  /** A slash followed by a slash-free component splits into "" and the component. */
  lemma LeadingSlashPieces(component: string)
    requires '/' !in component
    ensures Split("/" + component, '/') == ["", component]
  {
    var s := "/" + component;
    assert s[0] == '/' && s[1..] == component;
    SplitNoSeparator(component, '/');
  }

  /** The second `/`-piece of `head + "/" + component` is the component. */
  lemma SecondSlashPiece(head: string, component: string)
    requires '/' !in head && '/' !in component
    ensures At(Split(head + "/" + component, '/'), 1) == Some(component)
  {
    assert head + "/" + component == head + ['/'] + component;
    SplitConcat(head, component, '/');
    SplitNoSeparator(head, '/');
    SplitNoSeparator(component, '/');
  }

  /**
   * The index `getNewAddress` picks: 0 when there is no previous address (or its path
   * or last `/` piece is empty), otherwise the last `/` piece of the previous path plus one.
   */
  function NextAddressIndex(addresses: seq<Address>): (n: JsNumber)
    ensures |addresses| == 0 || Last(addresses).path == "" ==> n == Num(0)
    ensures |addresses| > 0 && Last(addresses).path != "" && '/' !in Last(addresses).path ==>
      n == Inc(ParseInt(Last(addresses).path))
  {
    if |addresses| == 0 then Num(0)
    else
      var path := Last(addresses).path;
      SlashFreeIsLastPiece(path);
      if path == "" then Num(0)
      else
        var piece := Last(Split(path, '/'));
        if piece == "" then Num(0) else Inc(ParseInt(piece))
  }

  /** Text without `/` is its own last `/` piece. */
  lemma SlashFreeIsLastPiece(path: string)
    ensures '/' !in path ==> Last(Split(path, '/')) == path
  {
    if '/' !in path {
      SplitNoSeparator(path, '/');
    }
  }

  /**
   * The path of a fresh receive address: the account path (the text `undefined` when
   * no account is known), then the external chain `0`, then the next index.
   */
  function FreshAddressPath(accountPath: Option<string>, addresses: seq<Address>): (path: string)
    ensures Split(path, '/') == Split(accountPath.GetOr("undefined"), '/') + ["0", ToString(NextAddressIndex(addresses))]
  {
    var base, index := accountPath.GetOr("undefined"), ToString(NextAddressIndex(addresses));
    AppendedPieces(base, index);
    base + "/0/" + index
  }

  /** Appending `/0/` and a slash-free index adds exactly the pieces `0` and the index. */
  lemma AppendedPieces(base: string, index: string)
    ensures '/' !in index ==> Split(base + "/0/" + index, '/') == Split(base, '/') + ["0", index]
  {
    if '/' !in index {
      var tail := "0" + ['/'] + index;
      assert base + "/0/" + index == base + ['/'] + tail;
      SplitNoSeparator("0", '/');
      SplitNoSeparator(index, '/');
      SplitConcat("0", index, '/');
      SplitConcat(base, tail, '/');
    }
  }

  /** A previous address whose path ends in the decimal index k yields index k + 1. */
  lemma NextIndexAfterPath(addresses: seq<Address>, base: string, k: int)
    requires |addresses| >= 1
    requires Last(addresses).path == base + "/" + ToString(Num(k))
    ensures NextAddressIndex(addresses) == Num(k + 1)
  {
    var t := ToString(Num(k));
    assert Last(addresses).path == base + ['/'] + t;
    LastPieceOfConcat(base, t, '/');
    SplitNoSeparator(t, '/');
    NextIndexAfterPiece(addresses, k);
  }

  /** A previous address whose last `/` piece is the decimal index k yields index k + 1. */
  lemma NextIndexAfterPiece(addresses: seq<Address>, k: int)
    requires |addresses| >= 1 && Last(Split(Last(addresses).path, '/')) == ToString(Num(k))
    ensures NextAddressIndex(addresses) == Num(k + 1)
  {
    ParseIntToString(k);
  }

  /**
   * Using a fresh address advances the index: once the address fetched for the
   * fresh path is the last used address, the next fresh path has the following index.
   */
  lemma FreshPathsAdvance(accountPath: Option<string>, addresses: seq<Address>, fetched: string, k: int)
    requires NextAddressIndex(addresses) == Num(k)
    ensures NextAddressIndex(addresses + [Address(fetched, FreshAddressPath(accountPath, addresses))])
      == Num(k + 1)
  {
    var next := addresses + [Address(fetched, FreshAddressPath(accountPath, addresses))];
    assert Last(next).path == FreshAddressPath(accountPath, addresses);
    NextIndexAfterPiece(next, k);
  }

  /** The component state: known devices, the selected device, its account and the chosen address. */
  datatype AuthState = AuthState(
    devices: seq<Device>,
    device: Option<Device>,
    addresses: seq<Address>,
    account: Option<Account>,
    selectedAddress: Option<Address>)

  /** `devices.filter(d => d.id !== id)`: the devices with another id, in their order. */
  function RemoveDevice(devices: seq<Device>, id: DeviceId): (r: seq<Device>)
    ensures forall d :: d in r <==> d in devices && d.id != id
    ensures forall d: Device :: d.id != id ==> multiset(r)[d] == multiset(devices)[d]
    ensures |r| <= |devices|
    ensures |devices| == 0 ==> r == []
    ensures |devices| == 1 ==> r == (if devices[0].id == id then [] else devices)
    decreases |devices|
  {
    if |devices| == 0 then []
    else
      var rest := RemoveDevice(devices[1..], id);
      assert devices == [devices[0]] + devices[1..];
      if devices[0].id == id then rest else [devices[0]] + rest
  }

  /**
   * Filtering keeps order: filtering a concatenation is filtering each part. With the
   * empty and one-device cases of `RemoveDevice`'s contract this fixes the result for
   * every list.
   */
  lemma {:induction false} RemoveDeviceAppend(a: seq<Device>, b: seq<Device>, id: DeviceId)
    ensures RemoveDevice(a + b, id) == RemoveDevice(a, id) + RemoveDevice(b, id)
    decreases |a|
  {
    if |a| > 0 {
      var ab := a + b;
      assert ab[0] == a[0] && ab[1..] == a[1..] + b;
      var tail, abTail := RemoveDevice(a[1..], id), RemoveDevice(ab[1..], id);
      assert RemoveDevice(a, id) == if a[0].id == id then tail else [a[0]] + tail;
      assert RemoveDevice(ab, id) == if a[0].id == id then abTail else [a[0]] + abTail;
      RemoveDeviceAppend(a[1..], b, id);
    } else {
      assert a + b == b;
    }
  }

  /**
   * A device event. CONNECT appends the device and selects it when none is selected;
   * DISCONNECT drops every device with that id and forgets the selection, the
   * addresses, the account and the chosen address; other events change nothing.
   */
  function OnDeviceEvent(s: AuthState, ev: DeviceEvent): (r: AuthState)
    ensures ev.kind.DeviceConnect? ==>
      && r.devices == s.devices + [ev.payload]
      && r.device == (if s.device.None? then Some(ev.payload) else s.device)
      && r.addresses == s.addresses && r.account == s.account
      && r.selectedAddress == s.selectedAddress
    ensures ev.kind.DeviceDisconnect? ==>
      && r.devices == RemoveDevice(s.devices, ev.payload.id)
      && (forall d :: d in r.devices <==> d in s.devices && d.id != ev.payload.id)
      && r.device.None? && r.addresses == [] && r.account.None? && r.selectedAddress.None?
    ensures ev.kind.OtherDeviceEvent? ==> r == s
  {
    match ev.kind
    case DeviceConnect =>
      s.(devices := s.devices + [ev.payload],
         device := if s.device.None? then Some(ev.payload) else s.device)
    case DeviceDisconnect =>
      AuthState(RemoveDevice(s.devices, ev.payload.id), None, [], None, None)
    case OtherDeviceEvent(_) => s
  }

  /** `device?.path`: the path of the chosen device, if any. */
  function PathOf(device: Option<Device>): Option<string>
  {
    match device
    case None => None
    case Some(d) => Some(d.path)
  }

  /** The account-info request of `selectAccount`: network and device path. */
  datatype AccountInfoRequest = AccountInfoRequest(coin: Network, devicePath: Option<string>)

  function SelectAccountRequest(network: Network, trezor: Option<Device>): (q: AccountInfoRequest)
    ensures q.coin == network
    ensures q.devicePath == (if trezor.Some? then Some(trezor.value.path) else None)
  {
    AccountInfoRequest(network, PathOf(trezor))
  }

  /**
   * The reply to the account-info request: a non-empty account path is resolved into
   * the account; an empty path is ignored; a failure, a rejection or a throwing
   * `resolveAccount` reports its message and changes nothing.
   */
  function OnAccountInfo(s: AuthState, reply: Reply<string>): (r: (AuthState, Option<string>))
    ensures r.1.Some? ==> r.0 == s
    ensures reply.Success? && reply.payload != "" && r.1.None? ==>
      && r.0.account.Some? && r.0.account.value.path == reply.payload
      && r.0 == s.(account := r.0.account)
    ensures reply.Success? && reply.payload != "" ==>
      (r.1.None? <==> multiset(reply.payload)['\''] >= 2)
    ensures !reply.Success? ==> r == (s, Some(if reply.Failure? then reply.error else reply.message))
    ensures reply == Success("") ==> r == (s, None)
    ensures reply.Success? && reply.payload != "" ==>
      && (ResolveAccount(reply.payload).Ok? ==> r.0.account == Some(ResolveAccount(reply.payload).value))
      && (ResolveAccount(reply.payload).Err? ==> r.1 == Some(ResolveAccount(reply.payload).message))
  {
    match reply
    case Success(path) =>
      if path == "" then (s, None)
      else (match ResolveAccount(path)
        case Ok(account) => (s.(account := Some(account)), None)
        case Err(m) => (s, Some(m)))
    case Failure(e) => (s, Some(e))
    case Thrown(m) => (s, Some(m))
  }

  /** The address request of `getNewAddress`. */
  datatype AddressRequest = AddressRequest(coin: Network, devicePath: Option<string>, path: string)

  /** The path of the known account, if any. */
  function AccountPathOf(s: AuthState): Option<string>
  {
    if s.account.Some? then Some(s.account.value.path) else None
  }

  function NewAddressRequest(network: Network, s: AuthState): (q: AddressRequest)
    ensures q.coin == network
    ensures q.devicePath == (if s.device.Some? then Some(s.device.value.path) else None)
    ensures s.account.Some? && |s.addresses| == 0 ==> q.path == s.account.value.path + "/0/0"
    ensures q.path == FreshAddressPath(AccountPathOf(s), s.addresses)
  {
    AddressRequest(
      network,
      PathOf(s.device),
      FreshAddressPath(AccountPathOf(s), s.addresses))
  }

  /** The address reply: on success the fetched address (with its serialized path) becomes the chosen one. */
  function OnAddressReply(s: AuthState, reply: Reply<Address>): (r: (AuthState, Option<string>))
    ensures reply.Success? ==> r == (s.(selectedAddress := Some(reply.payload)), None)
    ensures reply.Failure? ==> r == (s, Some(reply.error))
    ensures reply.Thrown? ==> r == (s, Some(reply.message))
  {
    match reply
    case Success(a) => (s.(selectedAddress := Some(a)), None)
    case Failure(e) => (s, Some(e))
    case Thrown(m) => (s, Some(m))
  }

  /**
   * The address reply with the fetched address also recorded as the last used one,
   * so that the next fresh address gets the following index. The source only selects
   * the address (see `OnAddressReply`).
   */
  function OnAddressReplyRecorded(s: AuthState, reply: Reply<Address>): (r: (AuthState, Option<string>))
    ensures reply.Success? ==>
      && r.1.None? && r.0.selectedAddress == Some(reply.payload)
      && r.0.addresses == s.addresses + [reply.payload]
      && r.0 == s.(selectedAddress := r.0.selectedAddress, addresses := r.0.addresses)
    ensures !reply.Success? ==> r == OnAddressReply(s, reply)
  {
    match reply
    case Success(a) => (s.(selectedAddress := Some(a), addresses := s.addresses + [a]), None)
    case _ => OnAddressReply(s, reply)
  }

  /** A click on an entry of the used-address list selects that address; the list offers nothing else. */
  function PickUsedAddress(s: AuthState, a: Address): (r: AuthState)
    ensures r.selectedAddress == (if a in s.addresses then Some(a) else s.selectedAddress)
    ensures r.(selectedAddress := s.selectedAddress) == s
  {
    if a in s.addresses then s.(selectedAddress := Some(a)) else s
  }

  /** What reaches the authentication screen: device events, the wallet's replies and list clicks. */
  datatype AuthEvent =
    | DeviceChanged(deviceEvent: DeviceEvent)
    | AccountInfoReplied(accountReply: Reply<string>)
    | AddressReplied(addressReply: Reply<Address>)
    | AddressPicked(picked: Address)

  /** One event as the source handles it. */
  function AuthStepAsWritten(s: AuthState, e: AuthEvent): AuthState
  {
    match e
    case DeviceChanged(ev) => OnDeviceEvent(s, ev)
    case AccountInfoReplied(reply) => OnAccountInfo(s, reply).0
    case AddressReplied(reply) => OnAddressReply(s, reply).0
    case AddressPicked(a) => PickUsedAddress(s, a)
  }

  function AuthRunAsWritten(s: AuthState, events: seq<AuthEvent>): AuthState
    decreases |events|
  {
    if |events| == 0 then s else AuthRunAsWritten(AuthStepAsWritten(s, events[0]), events[1..])
  }

  /**
   * As written, the used-address list is never filled: it starts empty and is only
   * ever reset, so every fresh address requested is index 0 of the account's
   * external chain, however many addresses were fetched before.
   */
  lemma {:induction false} FreshAddressNeverAdvances(network: Network, s: AuthState, events: seq<AuthEvent>)
    requires s.addresses == []
    ensures AuthRunAsWritten(s, events).addresses == []
    ensures var last := AuthRunAsWritten(s, events);
      last.account.Some? ==> NewAddressRequest(network, last).path == last.account.value.path + "/0/0"
    decreases |events|
  {
    if |events| > 0 {
      FreshAddressNeverAdvances(network, AuthStepAsWritten(s, events[0]), events[1..]);
    }
  }

  /** The state after fetching the fresh address, the wallet answering with `fetched` at the requested path. */
  function FetchFresh(network: Network, s: AuthState, fetched: string): (r: AuthState)
    ensures r.addresses == s.addresses + [Address(fetched, NewAddressRequest(network, s).path)]
    ensures r.account == s.account && r.device == s.device
  {
    OnAddressReplyRecorded(s, Success(Address(fetched, NewAddressRequest(network, s).path))).0
  }

  /** Fetching fresh addresses one after another with the recorded reply. */
  function FetchAll(network: Network, s: AuthState, fetched: seq<string>): AuthState
    decreases |fetched|
  {
    if |fetched| == 0 then s else FetchAll(network, FetchFresh(network, s, fetched[0]), fetched[1..])
  }

  /** With fetched addresses recorded, each fetch moves the fresh index on by one. */
  lemma {:induction false} FetchesAdvance(network: Network, s: AuthState, fetched: seq<string>, k: int)
    requires NextAddressIndex(s.addresses) == Num(k)
    ensures NextAddressIndex(FetchAll(network, s, fetched).addresses) == Num(k + |fetched|)
    decreases |fetched|
  {
    if |fetched| > 0 {
      var next := FetchFresh(network, s, fetched[0]);
      assert FetchAll(network, s, fetched) == FetchAll(network, next, fetched[1..]);
      FetchAdvances(network, s, fetched[0], k);
      FetchesAdvance(network, next, fetched[1..], k + 1);
    }
  }

  /** One fetch with the recorded reply moves the fresh index on by one. */
  lemma FetchAdvances(network: Network, s: AuthState, fetched: string, k: int)
    requires NextAddressIndex(s.addresses) == Num(k)
    ensures NextAddressIndex(FetchFresh(network, s, fetched).addresses) == Num(k + 1)
  {
    FreshPathsAdvance(AccountPathOf(s), s.addresses, fetched, k);
  }

  /** The signing request of `submit`: the challenge, signed with the chosen address's key. */
  datatype SignRequest = SignRequest(coin: Network, devicePath: Option<string>, message: string, path: string)

  /** `submit`: nothing without a chosen address, otherwise a request to sign the challenge. */
  function SubmitRequest(network: Network, s: AuthState): (q: Option<SignRequest>)
    ensures q.None? <==> s.selectedAddress.None?
    ensures q.Some? ==>
      && q.value.message == CHALLENGE && q.value.coin == network
      && q.value.path == s.selectedAddress.value.path
      && q.value.devicePath == (if s.device.Some? then Some(s.device.value.path) else None)
  {
    match s.selectedAddress
    case None => None
    case Some(a) =>
      Some(SignRequest(network, PathOf(s.device), CHALLENGE, a.path))
  }

  /** What the wallet returns for a signed message. */
  datatype SignedMessage = SignedMessage(address: string, signature: string)

  /**
   * The signing reply. On success the party's identity claim is the session id
   * `<network>-<word>-<suffix>`, the signer's address and signature, the
   * `connecting` flag and the current device; otherwise the error message.
   */
  function OnSigned(network: Network, connecting: bool, s: AuthState, reply: Reply<SignedMessage>,
                    word: string, suffix: string): (r: Result<Identification>)
    ensures r.Ok? <==> reply.Success?
    ensures r.Ok? ==>
      && r.value.address == reply.payload.address
      && r.value.signature == reply.payload.signature
      && r.value.connecting == connecting
      && r.value.device == s.device
      && NetworkOfId(r.value.id) == network
      && r.value.id == NetworkTag(network) + "-" + word + "-" + suffix
    ensures reply.Failure? ==> r == Err(reply.error)
    ensures reply.Thrown? ==> r == Err(reply.message)
  {
    match reply
    case Success(signed) =>
      NetworkOfSessionId(network, word, suffix);
      Ok(Identification(SessionId(network, word, suffix), signed.address, signed.signature, connecting, s.device))
    case Failure(e) => Err(e)
    case Thrown(m) => Err(m)
  }
}

=== FILE: chat.dfy ===
/**
 * The chat component (src/client/react/components/Chat.tsx) as an event-driven
 * state machine. The PeerJS data connection becomes an append-only outbox of
 * frames, the wallet's `verifyMessage` becomes a log of requests answered by
 * `VerifyReply` events, the typing debounce becomes an explicit timer token,
 * and `handleError` becomes an append-only log of reported messages.
 */
module Chat {
  import opened Wrappers
  import opened Types

  const START_TYPING: string := "startTyping"
  const END_TYPING: string := "endTyping"
  const REQUEST_IDENTIFICATION: string := "requestIdentification"

  /** The error a send helper reports when it finds no remote connection. */
  const NOT_ESTABLISHED: string := "PeerJS remote connection not established!"

  /** A frame on the data connection, told apart by its `type` field. */
  datatype Frame =
    | MessageFrame(text: string)
    | ActionFrame(action: string)
    | IdentificationFrame(identification: Identification)
    | UnknownFrame(kind: string)

  /** `guestVerification`: '' , 'pending', 'valid' or 'invalid'. */
  datatype Verification = Unverified | Pending | Valid | Invalid

  /** A data connection: the id of the peer at the other end and the metadata it carries. */
  datatype Connection = Connection(peer: string, metadata: Option<Identification>)

  /** The arguments of one `verifyMessage` call. */
  datatype VerifyRequest = VerifyRequest(
    address: string,
    coin: Network,
    devicePath: Option<string>,
    message: string,
    signature: string)

  /** The props of a mounted chat; they do not change while it is mounted. */
  datatype Props = Props(identification: Identification, chatId: string, network: Network)

  /**
   * The component state. `peerReady` records that the peer's `open` event has run
   * `registerListeners`; `typingTimer` is the pending typing timeout, if any, and
   * `nextTimer` the token the next one gets; `inFlight` counts unsettled
   * `verifyMessage` promises; `raised` logs every `handleError` call.
   */
  datatype ChatState = ChatState(
    peerReady: bool,
    connection: Option<Connection>,
    messages: seq<Message>,
    draft: string,
    connected: bool,
    oppositeIsTyping: bool,
    guest: Option<Identification>,
    verification: Verification,
    trezorConnected: bool,
    trezorPath: Option<string>,
    typingTimer: Option<nat>,
    nextTimer: nat,
    outbox: seq<Frame>,
    verifyRequests: seq<VerifyRequest>,
    inFlight: nat,
    raised: seq<string>)

  /** `identification.device?.path`. */
  function DevicePath(identification: Identification): Option<string>
  {
    match identification.device
    case None => None
    case Some(d) => Some(d.path)
  }

  /** The state on mount: nothing connected, the wallet assumed present at the claim's device path. */
  function Initial(p: Props): (s: ChatState)
    ensures s.connection.None? && !s.peerReady && !s.connected && !s.oppositeIsTyping
    ensures s.messages == [] && s.outbox == [] && s.verifyRequests == [] && s.raised == []
    ensures s.guest.None? && s.verification == Unverified
    ensures s.trezorConnected && s.trezorPath == DevicePath(p.identification)
    ensures s.draft == "" && s.typingTimer.None? && s.inFlight == 0
  {
    ChatState(false, None, [], "", false, false, None, Unverified, true,
              DevicePath(p.identification), None, 0, [], [], 0, [])
  }

  /** The events the component reacts to. */
  datatype Event =
    | PeerOpen
    | PeerError(errorType: string)
    | IncomingConnection(incoming: Connection)
    | ConnectionOpen
    | ConnectionClose
    | Data(frame: Frame)
    | SendMessage
    | DraftChanged(text: string)
    | TypingTimerFired(timer: nat)
    | DeviceChanged(deviceEvent: DeviceEvent)
    | VerifyReply(reply: Reply<()>)

  /** The messages `handleError` may receive while handling `e`: those the event carries. */
  predicate ErrorFrom(e: Event, m: string)
  {
    || (e.PeerError? && m == e.errorType)
    || (e.VerifyReply? && e.reply.Failure? && m == e.reply.error)
    || (e.VerifyReply? && e.reply.Thrown? && m == e.reply.message)
  }

  /**
   * What every event respects: the message log, the outbox, the verification requests
   * and the error log only grow; an opened peer stays open; a connection is never
   * dropped, and only the peer opening or an incoming connection sets one; and the
   * only error reported is one the event itself carries, so the "not established"
   * guards never fire.
   */
  predicate Respects(s: ChatState, r: ChatState, e: Event)
  {
    && s.messages <= r.messages && s.outbox <= r.outbox
    && s.verifyRequests <= r.verifyRequests && s.raised <= r.raised
    && (s.peerReady ==> r.peerReady)
    && (s.connection.Some? ==> r.connection.Some?)
    && (|| r.connection == s.connection
        || (e.IncomingConnection? && r.connection == Some(e.incoming))
        || (e.PeerOpen? && !s.peerReady))
    && (r.raised == s.raised || (|r.raised| == |s.raised| + 1 && ErrorFrom(e, r.raised[|s.raised|])))
  }

  /** `remoteConnection.send` of each frame, in order. */
  function Send(s: ChatState, frames: seq<Frame>): ChatState
  {
    s.(outbox := s.outbox + frames)
  }

  /** `requestIdentification` and `sendIdentification`: one frame, or the "not established" error. */
  function SendChecked(s: ChatState, frame: Frame): ChatState
  {
    if s.connection.None? then s.(raised := s.raised + [NOT_ESTABLISHED]) else Send(s, [frame])
  }

  /**
   * The peer's `open` event runs `registerListeners`: the party joining an existing chat
   * dials the chat id with its own claim as metadata, the party starting it begins to
   * accept incoming connections. A peer opens once; a repeated event changes nothing.
   */
  function OnPeerOpen(p: Props, s: ChatState): (r: ChatState)
    ensures Respects(s, r, PeerOpen)
    ensures r.peerReady
    ensures s.peerReady ==> r == s
    ensures !s.peerReady && p.identification.connecting ==>
      r == s.(peerReady := true, connection := Some(Connection(p.chatId, Some(p.identification))))
    ensures !p.identification.connecting ==> r == s.(peerReady := true)
  {
    if s.peerReady then s
    else if p.identification.connecting then
      s.(peerReady := true, connection := Some(Connection(p.chatId, Some(p.identification))))
    else s.(peerReady := true)
  }

  /** A peer error is reported by its type once the error listener is registered. */
  function OnPeerError(s: ChatState, errorType: string): (r: ChatState)
    ensures Respects(s, r, PeerError(errorType))
    ensures s.peerReady ==> r == s.(raised := s.raised + [errorType])
    ensures !s.peerReady ==> r == s
  {
    if s.peerReady then s.(raised := s.raised + [errorType]) else s
  }

  /**
   * Once its peer is open, the starting party adopts every connection that reaches it,
   * replacing the one it had; the joining party never listens for connections.
   */
  function OnIncoming(p: Props, s: ChatState, c: Connection): (r: ChatState)
    ensures Respects(s, r, IncomingConnection(c))
    ensures s.peerReady && !p.identification.connecting ==> r.connection == Some(c)
    ensures !(s.peerReady && !p.identification.connecting) ==> r == s
    ensures r == s.(connection := r.connection)
  {
    if s.peerReady && !p.identification.connecting then s.(connection := Some(c)) else s
  }

  /** The connection's `open` event: connected, and one identification request goes out. */
  function OnOpen(s: ChatState): (r: ChatState)
    ensures Respects(s, r, ConnectionOpen)
    ensures s.connection.Some? ==>
      r == s.(connected := true, outbox := s.outbox + [ActionFrame(REQUEST_IDENTIFICATION)])
    ensures s.connection.None? ==> r == s
  {
    if s.connection.None? then s
    else SendChecked(s.(connected := true), ActionFrame(REQUEST_IDENTIFICATION))
  }

  /** The connection's `close` event: disconnected, and the other party is no longer typing. */
  function OnClose(s: ChatState): (r: ChatState)
    ensures Respects(s, r, ConnectionClose)
    ensures s.connection.Some? ==> r == s.(connected := false, oppositeIsTyping := false)
    ensures s.connection.None? ==> r == s
  {
    if s.connection.None? then s else s.(connected := false, oppositeIsTyping := false)
  }

  /**
   * The effect keyed on the guest claim, its status and the wallet's presence: with a
   * stored guest claim, status 'pending' and the wallet present, one `verifyMessage`
   * call checks the guest's signature of the challenge on this chat's network.
   */
  function ValidationEffect(p: Props, s: ChatState): (r: ChatState)
    ensures var attempted := s.guest.Some? && s.verification == Pending && s.trezorConnected;
      && (attempted ==>
            && |r.verifyRequests| == |s.verifyRequests| + 1 && s.verifyRequests <= r.verifyRequests
            && r == s.(verifyRequests := r.verifyRequests, inFlight := s.inFlight + 1))
      && (!attempted ==> r == s)
    ensures |r.verifyRequests| > |s.verifyRequests| ==>
      var q := r.verifyRequests[|s.verifyRequests|];
      && q.address == s.guest.value.address && q.signature == s.guest.value.signature
      && q.message == CHALLENGE && q.coin == p.network && q.devicePath == s.trezorPath
  {
    if s.guest.Some? && s.verification == Pending && s.trezorConnected then
      var q := VerifyRequest(s.guest.value.address, p.network, s.trezorPath, CHALLENGE, s.guest.value.signature);
      s.(verifyRequests := s.verifyRequests + [q], inFlight := s.inFlight + 1)
    else s
  }

  /**
   * An `action` frame: `startTyping` and `endTyping` set the other party's typing flag,
   * `requestIdentification` answers with this party's claim, anything else is ignored.
   */
  function OnAction(p: Props, s: ChatState, action: string): (r: ChatState)
    requires s.connection.Some?
    ensures Respects(s, r, Data(ActionFrame(action)))
    ensures action == START_TYPING ==> r == s.(oppositeIsTyping := true)
    ensures action == END_TYPING ==> r == s.(oppositeIsTyping := false)
    ensures action == REQUEST_IDENTIFICATION ==>
      r == s.(outbox := s.outbox + [IdentificationFrame(p.identification)])
    ensures action !in {START_TYPING, END_TYPING, REQUEST_IDENTIFICATION} ==> r == s
  {
    if action == START_TYPING then s.(oppositeIsTyping := true)
    else if action == END_TYPING then s.(oppositeIsTyping := false)
    else if action == REQUEST_IDENTIFICATION then SendChecked(s, IdentificationFrame(p.identification))
    else s
  }

  /**
   * An `identification` frame stores the guest's claim and sets its status to 'pending',
   * whatever the status was; the validation effect then runs for the new claim.
   */
  function OnIdentification(p: Props, s: ChatState, g: Identification): (r: ChatState)
    ensures Respects(s, r, Data(IdentificationFrame(g)))
    ensures r.guest == Some(g) && r.verification == Pending
    ensures |r.verifyRequests| == |s.verifyRequests| + (if s.trezorConnected then 1 else 0)
    ensures s.trezorConnected ==>
      r.verifyRequests[|s.verifyRequests|] == VerifyRequest(g.address, p.network, s.trezorPath, CHALLENGE, g.signature)
    ensures r.(verifyRequests := s.verifyRequests, inFlight := s.inFlight)
      == s.(guest := Some(g), verification := Pending)
  {
    ValidationEffect(p, s.(verification := Pending, guest := Some(g)))
  }

  /** A frame from the other party; there is none before a connection exists. */
  function OnData(p: Props, s: ChatState, frame: Frame): (r: ChatState)
    ensures Respects(s, r, Data(frame))
    ensures s.connection.None? ==> r == s
    ensures s.connection.Some? && frame.MessageFrame? ==>
      r == s.(messages := s.messages + [Message(Opposite, frame.text)])
    ensures frame.UnknownFrame? ==> r == s
  {
    if s.connection.None? then s
    else match frame
      case MessageFrame(text) => s.(messages := s.messages + [Message(Opposite, text)])
      case ActionFrame(action) => OnAction(p, s, action)
      case IdentificationFrame(g) => OnIdentification(p, s, g)
      case UnknownFrame(_) => s
  }

  /**
   * The typing effect, run when the draft changes: the previous timeout is cleared;
   * with a connection, a non-empty draft announces typing and a fresh timeout is armed
   * that will announce the end of typing.
   */
  function TypingEffect(s: ChatState): (r: ChatState)
    ensures s.connection.None? ==> r == s.(typingTimer := None)
    ensures s.connection.Some? ==>
      && r.typingTimer == Some(s.nextTimer) && r.nextTimer == s.nextTimer + 1
      && r.outbox == s.outbox + (if s.draft == "" then [] else [ActionFrame(START_TYPING)])
      && r == s.(typingTimer := r.typingTimer, nextTimer := r.nextTimer, outbox := r.outbox)
  {
    var cleared := s.(typingTimer := None);
    if s.connection.None? then cleared
    else
      var announced := if s.draft == "" then cleared else Send(cleared, [ActionFrame(START_TYPING)]);
      announced.(typingTimer := Some(s.nextTimer), nextTimer := s.nextTimer + 1)
  }

  /** `setMessage(text)`: the effect runs only when the draft actually changes. */
  function SetDraft(s: ChatState, text: string): (r: ChatState)
    ensures Respects(s, r, DraftChanged(text))
    ensures r.draft == text
    ensures text == s.draft ==> r == s
    ensures text != s.draft ==> r == TypingEffect(s.(draft := text))
  {
    if text == s.draft then s else TypingEffect(s.(draft := text))
  }

  /**
   * `sendMessage`: with a non-empty draft and a connection, the draft goes out followed by
   * an end-of-typing action, joins the log as this party's message, and is cleared.
   * An empty draft or a missing connection changes nothing.
   */
  function OnSendMessage(s: ChatState): (r: ChatState)
    ensures Respects(s, r, SendMessage)
    ensures r == s <==> s.draft == "" || s.connection.None?
    ensures s.draft != "" && s.connection.Some? ==>
      && r.outbox == s.outbox + [MessageFrame(s.draft), ActionFrame(END_TYPING)]
      && r.messages == s.messages + [Message(Me, s.draft)]
      && r.draft == ""
      && r.typingTimer == Some(s.nextTimer)
      && r == s.(outbox := r.outbox, messages := r.messages, draft := "",
                 typingTimer := r.typingTimer, nextTimer := s.nextTimer + 1)
  {
    if s.draft == "" || s.connection.None? then s
    else
      var sent := Send(s, [MessageFrame(s.draft), ActionFrame(END_TYPING)]);
      var logged := sent.(messages := s.messages + [Message(Me, s.draft)]);
      // the draft was non-empty, so clearing it re-runs the typing effect
      TypingEffect(logged.(draft := ""))
  }

  /** A typing timeout fires: only the pending one announces the end of typing; a cleared one never runs. */
  function OnTypingTimer(s: ChatState, t: nat): (r: ChatState)
    ensures Respects(s, r, TypingTimerFired(t))
    ensures s.typingTimer == Some(t) ==>
      r == s.(typingTimer := None, outbox := s.outbox + [ActionFrame(END_TYPING)])
    ensures s.typingTimer != Some(t) ==> r == s
  {
    if s.typingTimer == Some(t) then Send(s, [ActionFrame(END_TYPING)]).(typingTimer := None) else s
  }

  /**
   * A wallet device event. CONNECT of the claim's own device (with a truthy id) records its
   * path and marks the wallet present; DISCONNECT of that device (with a non-empty path)
   * marks it absent; every other event changes nothing. A wallet coming back re-runs the
   * validation effect.
   */
  function OnDevice(p: Props, s: ChatState, ev: DeviceEvent): (r: ChatState)
    ensures Respects(s, r, DeviceChanged(ev))
    ensures var own := ev.payload.id == LocalDeviceId(p.identification);
      && (ev.kind.DeviceConnect? && Truthy(ev.payload.id) && own ==>
            r == (if s.trezorConnected then s.(trezorPath := Some(ev.payload.path))
                  else ValidationEffect(p, s.(trezorPath := Some(ev.payload.path), trezorConnected := true))))
      && (ev.kind.DeviceDisconnect? && ev.payload.path != "" && own ==> r == s.(trezorConnected := false))
    ensures var own := ev.payload.id == LocalDeviceId(p.identification);
      (!(ev.kind.DeviceConnect? && Truthy(ev.payload.id) && own)
       && !(ev.kind.DeviceDisconnect? && ev.payload.path != "" && own)) ==> r == s
    ensures r.trezorConnected != s.trezorConnected ==>
      && ev.payload.id == LocalDeviceId(p.identification)
      && (r.trezorConnected <==> ev.kind.DeviceConnect?)
    ensures r.messages == s.messages && r.outbox == s.outbox && r.guest == s.guest
      && r.verification == s.verification && r.raised == s.raised
      && r.oppositeIsTyping == s.oppositeIsTyping && r.connection == s.connection
      && r.peerReady == s.peerReady && r.connected == s.connected
      && r.typingTimer == s.typingTimer && r.nextTimer == s.nextTimer && r.draft == s.draft
  {
    var own := ev.payload.id == LocalDeviceId(p.identification);
    match ev.kind
    case DeviceConnect =>
      if Truthy(ev.payload.id) && own then
        var present := s.(trezorPath := Some(ev.payload.path), trezorConnected := true);
        if s.trezorConnected then present else ValidationEffect(p, present)
      else s
    case DeviceDisconnect =>
      if ev.payload.path != "" && own then s.(trezorConnected := false) else s
    case OtherDeviceEvent(_) => s
  }

  /**
   * A `verifyMessage` promise settles: success marks the guest 'valid', a failure
   * reports its error and marks the guest 'invalid', a rejection reports its message
   * and keeps the status. A reply needs an unsettled request.
   */
  function OnVerifyReply(s: ChatState, reply: Reply<()>): (r: ChatState)
    ensures Respects(s, r, VerifyReply(reply))
    ensures s.inFlight == 0 ==> r == s
    ensures s.inFlight > 0 ==>
      && r.inFlight == s.inFlight - 1
      && (reply.Success? ==> r.verification == Valid && r.raised == s.raised)
      && (reply.Failure? ==> r.verification == Invalid && r.raised == s.raised + [reply.error])
      && (reply.Thrown? ==> r.verification == s.verification && r.raised == s.raised + [reply.message])
      && r == s.(inFlight := r.inFlight, verification := r.verification, raised := r.raised)
  {
    if s.inFlight == 0 then s
    else
      var settled := s.(inFlight := s.inFlight - 1);
      match reply
      case Success(_) => settled.(verification := Valid)
      case Failure(e) => settled.(verification := Invalid, raised := s.raised + [e])
      case Thrown(m) => settled.(raised := s.raised + [m])
  }

  /** One event, dispatched to its handler; every event respects the append-only logs, the connection and the error sources. */
  function Step(p: Props, s: ChatState, e: Event): (r: ChatState)
    ensures Respects(s, r, e)
  {
    match e
    case PeerOpen => OnPeerOpen(p, s)
    case PeerError(t) => OnPeerError(s, t)
    case IncomingConnection(c) => OnIncoming(p, s, c)
    case ConnectionOpen => OnOpen(s)
    case ConnectionClose => OnClose(s)
    case Data(frame) => OnData(p, s, frame)
    case SendMessage => OnSendMessage(s)
    case DraftChanged(text) => SetDraft(s, text)
    case TypingTimerFired(t) => OnTypingTimer(s, t)
    case DeviceChanged(ev) => OnDevice(p, s, ev)
    case VerifyReply(reply) => OnVerifyReply(s, reply)
  }
}

=== FILE: chat_properties.dfy ===
/**
 * Properties of the chat state machine over whole event sequences: the state
 * invariant, the trace of the other party's messages, the typing flag, the gate
 * in front of identity verification, and the handshake of two parties.
 */
module ChatProperties {
  import opened Wrappers
  import opened Types
  import opened Chat

  /** The state after handling `events` in order. */
  function Run(p: Props, s: ChatState, events: seq<Event>): ChatState
    decreases |events|
  {
    if |events| == 0 then s else Run(p, Step(p, s, events[0]), events[1..])
  }

  /**
   * What holds in every reachable state. A connection needs an opened peer, and the
   * joining party's connection is the one it dialled; the connected and typing flags,
   * a pending typing timeout and every sent frame need a connection; the pending
   * typing timeout is the one armed last; a guest claim is stored exactly when a
   * status is; a settled status and every verification request need a stored claim;
   * every request checks the challenge on the chat's network.
   */
  predicate Inv(p: Props, s: ChatState)
  {
    && (s.connection.Some? ==> s.peerReady)
    && (p.identification.connecting && s.peerReady ==>
          s.connection == Some(Connection(p.chatId, Some(p.identification))))
    && (s.connected ==> s.connection.Some?)
    && (s.oppositeIsTyping ==> s.connection.Some?)
    && (s.typingTimer.Some? ==> s.connection.Some? && s.typingTimer.value + 1 == s.nextTimer)
    && (|s.outbox| > 0 ==> s.connection.Some?)
    && (s.guest.None? <==> s.verification == Unverified)
    && (|s.verifyRequests| > 0 ==> s.guest.Some?)
    && ((s.verification == Valid || s.verification == Invalid) ==> |s.verifyRequests| > 0)
    && s.inFlight <= |s.verifyRequests|
    && (forall i :: 0 <= i < |s.verifyRequests| ==>
          s.verifyRequests[i].message == CHALLENGE && s.verifyRequests[i].coin == p.network)
  }

  lemma InitialInv(p: Props)
    ensures Inv(p, Initial(p))
  {
  }

  /** New verification requests keep checking the challenge on the chat's network. */
  lemma RequestsStayWellFormed(p: Props, s: ChatState, r: ChatState)
    requires forall i :: 0 <= i < |s.verifyRequests| ==>
      s.verifyRequests[i].message == CHALLENGE && s.verifyRequests[i].coin == p.network
    requires s.verifyRequests <= r.verifyRequests
    requires |r.verifyRequests| <= |s.verifyRequests| + 1
    requires |r.verifyRequests| > |s.verifyRequests| ==>
      r.verifyRequests[|s.verifyRequests|].message == CHALLENGE
      && r.verifyRequests[|s.verifyRequests|].coin == p.network
    ensures forall i :: 0 <= i < |r.verifyRequests| ==>
      r.verifyRequests[i].message == CHALLENGE && r.verifyRequests[i].coin == p.network
  {
    forall i | 0 <= i < |r.verifyRequests|
      ensures r.verifyRequests[i].message == CHALLENGE && r.verifyRequests[i].coin == p.network
    {
      if i < |s.verifyRequests| {
        assert r.verifyRequests[i] == s.verifyRequests[i];
      }
    }
  }

  lemma DataKeepsInv(p: Props, s: ChatState, frame: Frame)
    requires Inv(p, s)
    ensures Inv(p, Step(p, s, Data(frame)))
  {
    if s.connection.Some? && frame.IdentificationFrame? {
      IdentificationKeepsInv(p, s, frame.identification);
    } else if s.connection.Some? && frame.ActionFrame? {
      ActionKeepsInv(p, s, frame.action);
    }
  }

  lemma IdentificationKeepsInv(p: Props, s: ChatState, g: Identification)
    requires Inv(p, s) && s.connection.Some?
    ensures Inv(p, OnIdentification(p, s, g))
  {
    RequestsStayWellFormed(p, s, OnIdentification(p, s, g));
  }

  lemma ActionKeepsInv(p: Props, s: ChatState, action: string)
    requires Inv(p, s) && s.connection.Some?
    ensures Inv(p, OnAction(p, s, action))
  {
  }

  lemma DeviceKeepsInv(p: Props, s: ChatState, ev: DeviceEvent)
    requires Inv(p, s)
    ensures Inv(p, Step(p, s, DeviceChanged(ev)))
  {
    var r := Step(p, s, DeviceChanged(ev));
    RequestsStayWellFormed(p, s, r);
  }

  lemma DraftKeepsInv(p: Props, s: ChatState, e: Event)
    requires Inv(p, s)
    requires e.SendMessage? || e.DraftChanged? || e.TypingTimerFired?
    ensures Inv(p, Step(p, s, e))
  {
  }

  lemma LinkKeepsInv(p: Props, s: ChatState, e: Event)
    requires Inv(p, s)
    requires e.PeerOpen? || e.PeerError? || e.IncomingConnection? || e.ConnectionOpen? || e.ConnectionClose?
    ensures Inv(p, Step(p, s, e))
  {
  }

  lemma StepKeepsInv(p: Props, s: ChatState, e: Event)
    requires Inv(p, s)
    ensures Inv(p, Step(p, s, e))
  {
    match e
    case Data(frame) => DataKeepsInv(p, s, frame);
    case DeviceChanged(ev) => DeviceKeepsInv(p, s, ev);
    case VerifyReply(_) => {}
    case SendMessage => DraftKeepsInv(p, s, e);
    case DraftChanged(_) => DraftKeepsInv(p, s, e);
    case TypingTimerFired(_) => DraftKeepsInv(p, s, e);
    case PeerOpen => LinkKeepsInv(p, s, e);
    case PeerError(_) => LinkKeepsInv(p, s, e);
    case IncomingConnection(_) => LinkKeepsInv(p, s, e);
    case ConnectionOpen => LinkKeepsInv(p, s, e);
    case ConnectionClose => LinkKeepsInv(p, s, e);
  }

  /** The invariant holds after any sequence of events. */
  lemma {:induction false} RunKeepsInv(p: Props, s: ChatState, events: seq<Event>)
    requires Inv(p, s)
    ensures Inv(p, Run(p, s, events))
    decreases |events|
  {
    if |events| > 0 {
      StepKeepsInv(p, s, events[0]);
      RunKeepsInv(p, Step(p, s, events[0]), events[1..]);
    }
  }

  /**
   * Over any sequence of events the logs only grow, an opened peer stays open, a
   * connection is never lost, and the joining party keeps the connection it dialled.
   * The starting party's connection may be replaced by a later incoming one.
   */
  lemma {:induction false} RunGrows(p: Props, s: ChatState, events: seq<Event>)
    ensures var r := Run(p, s, events);
      && s.messages <= r.messages && s.outbox <= r.outbox
      && s.verifyRequests <= r.verifyRequests && s.raised <= r.raised
      && (s.peerReady ==> r.peerReady)
      && (s.connection.Some? ==> r.connection.Some?)
      && (p.identification.connecting && s.peerReady ==> r.connection == s.connection)
    decreases |events|
  {
    if |events| > 0 {
      if p.identification.connecting && s.peerReady {
        JoinerKeepsConnection(p, s, events[0]);
      }
      RunGrows(p, Step(p, s, events[0]), events[1..]);
    }
  }

  /** The joining party's connection, once its peer is open, is never replaced. */
  lemma JoinerKeepsConnection(p: Props, s: ChatState, e: Event)
    requires p.identification.connecting && s.peerReady
    ensures Step(p, s, e).connection == s.connection
  {
  }

  /** The texts of the other party's messages in a log, in order. */
  function FromOpposite(log: seq<Message>): seq<string>
    decreases |log|
  {
    if |log| == 0 then []
    else FromOpposite(log[..|log| - 1]) + (if log[|log| - 1].author == Opposite then [log[|log| - 1].text] else [])
  }

  /** The texts of the `message` frames among the events, in order. */
  function Incoming(events: seq<Event>): seq<string>
    decreases |events|
  {
    if |events| == 0 then []
    else (if events[0].Data? && events[0].frame.MessageFrame? then [events[0].frame.text] else []) + Incoming(events[1..])
  }

  lemma FromOppositeAppend(log: seq<Message>, m: Message)
    ensures FromOpposite(log + [m]) == FromOpposite(log) + (if m.author == Opposite then [m.text] else [])
  {
    assert (log + [m])[..|log|] == log;
  }

  /** One event adds to the other party's messages exactly the text of a `message` frame. */
  lemma StepFromOpposite(p: Props, s: ChatState, e: Event)
    requires s.connection.Some?
    ensures FromOpposite(Step(p, s, e).messages) == FromOpposite(s.messages) + Incoming([e])
  {
    assert Incoming([e]) == (if e.Data? && e.frame.MessageFrame? then [e.frame.text] else []) + Incoming([]);
    if e.Data? && e.frame.MessageFrame? {
      assert Step(p, s, e).messages == s.messages + [Message(Opposite, e.frame.text)];
      FromOppositeAppend(s.messages, Message(Opposite, e.frame.text));
    } else if e.SendMessage? {
      if s.draft != "" {
        FromOppositeAppend(s.messages, Message(Me, s.draft));
      }
    } else {
      StepKeepsMessages(p, s, e);
    }
  }

  /** Only a `message` frame and `sendMessage` write to the log. */
  lemma StepKeepsMessages(p: Props, s: ChatState, e: Event)
    requires !(e.Data? && e.frame.MessageFrame?) && !e.SendMessage?
    ensures Step(p, s, e).messages == s.messages
  {
    if e.Data? {
      DataKeepsMessages(p, s, e.frame);
    }
  }

  lemma DataKeepsMessages(p: Props, s: ChatState, frame: Frame)
    requires !frame.MessageFrame?
    ensures OnData(p, s, frame).messages == s.messages
  {
  }

  /**
   * Once connected, the other party's messages in the log are exactly those it had plus
   * the texts of the `message` frames received, in arrival order.
   */
  lemma {:induction false} RemoteLogTrace(p: Props, s: ChatState, events: seq<Event>)
    requires s.peerReady && s.connection.Some?
    ensures FromOpposite(Run(p, s, events).messages) == FromOpposite(s.messages) + Incoming(events)
    decreases |events|
  {
    if |events| > 0 {
      var next := Step(p, s, events[0]);
      StepFromOpposite(p, s, events[0]);
      RemoteLogTrace(p, next, events[1..]);
      assert events == [events[0]] + events[1..];
      IncomingAppend([events[0]], events[1..]);
    }
  }

  lemma {:induction false} IncomingAppend(a: seq<Event>, b: seq<Event>)
    ensures Incoming(a + b) == Incoming(a) + Incoming(b)
    decreases |a|
  {
    if |a| == 0 {
      assert a + b == b;
    } else {
      assert (a + b)[0] == a[0] && (a + b)[1..] == a[1..] + b;
      IncomingAppend(a[1..], b);
    }
  }

  /** What one event adds to the log of a connected party, given the draft before it. */
  function Emitted(e: Event, draft: string): seq<Message>
  {
    if e.Data? && e.frame.MessageFrame? then [Message(Opposite, e.frame.text)]
    else if e.SendMessage? && draft != "" then [Message(Me, draft)]
    else []
  }

  /** The draft after one event of a connected party: typed text replaces it, sending clears it. */
  function DraftNext(e: Event, draft: string): string
  {
    if e.DraftChanged? then e.text else if e.SendMessage? then "" else draft
  }

  /**
   * The reference transcript of a connected party: each non-empty draft sent, as this
   * party's entry, and each `message` frame received, as the other party's entry, in
   * the order the events happen.
   */
  function Transcript(events: seq<Event>, draft: string): seq<Message>
    decreases |events|
  {
    if |events| == 0 then []
    else Emitted(events[0], draft) + Transcript(events[1..], DraftNext(events[0], draft))
  }

  /** The texts of the `message` frames in an outbox, in order. */
  function SentTexts(frames: seq<Frame>): seq<string>
    decreases |frames|
  {
    if |frames| == 0 then []
    else
      var last := frames[|frames| - 1];
      SentTexts(frames[..|frames| - 1]) + (if last.MessageFrame? then [last.text] else [])
  }

  /** The texts of this party's own entries in a log, in order. */
  function OwnTexts(log: seq<Message>): seq<string>
    decreases |log|
  {
    if |log| == 0 then []
    else OwnTexts(log[..|log| - 1]) + (if log[|log| - 1].author == Me then [log[|log| - 1].text] else [])
  }

  lemma {:induction false} SentTextsAppend(a: seq<Frame>, b: seq<Frame>)
    ensures SentTexts(a + b) == SentTexts(a) + SentTexts(b)
    decreases |b|
  {
    if |b| == 0 {
      assert a + b == a;
    } else {
      var c := a + b;
      assert c[..|c| - 1] == a + b[..|b| - 1];
      assert c[|c| - 1] == b[|b| - 1];
      SentTextsAppend(a, b[..|b| - 1]);
    }
  }

  lemma {:induction false} OwnTextsAppend(a: seq<Message>, b: seq<Message>)
    ensures OwnTexts(a + b) == OwnTexts(a) + OwnTexts(b)
    decreases |b|
  {
    if |b| == 0 {
      assert a + b == a;
    } else {
      var c := a + b;
      assert c[..|c| - 1] == a + b[..|b| - 1];
      assert c[|c| - 1] == b[|b| - 1];
      OwnTextsAppend(a, b[..|b| - 1]);
    }
  }

  /**
   * How one event moves the log, the draft and the sent texts: as the transcript says
   * for a connected party; without a connection, neither log nor sent texts change.
   */
  predicate LogsFollow(s: ChatState, r: ChatState, e: Event)
  {
    if s.connection.Some? then
      && r.messages == s.messages + Emitted(e, s.draft)
      && r.draft == DraftNext(e, s.draft)
      && SentTexts(r.outbox) == SentTexts(s.outbox) + OwnTexts(Emitted(e, s.draft))
    else r.messages == s.messages && SentTexts(r.outbox) == SentTexts(s.outbox)
  }

  /** Appending frames other than `message` frames leaves the sent texts alone. */
  lemma ActionsSendNoText(out: seq<Frame>, extra: seq<Frame>)
    requires forall i :: 0 <= i < |extra| ==> !extra[i].MessageFrame?
    requires |extra| <= 1
    ensures SentTexts(out + extra) == SentTexts(out)
  {
    SentTextsAppend(out, extra);
    if |extra| == 1 {
      assert extra[..0] == [];
    }
  }

  lemma StepLog(p: Props, s: ChatState, e: Event)
    ensures LogsFollow(s, Step(p, s, e), e)
  {
    match e
    case Data(frame) => DataLog(p, s, frame);
    case SendMessage => SendLog(s);
    case DraftChanged(text) => DraftLog(s, text);
    case TypingTimerFired(t) =>
      if s.typingTimer == Some(t) {
        ActionsSendNoText(s.outbox, [ActionFrame(END_TYPING)]);
      }
    case ConnectionOpen =>
      if s.connection.Some? {
        ActionsSendNoText(s.outbox, [ActionFrame(REQUEST_IDENTIFICATION)]);
      }
    case DeviceChanged(ev) => {}
    case _ => LinkLog(p, s, e);
  }

  lemma LinkLog(p: Props, s: ChatState, e: Event)
    requires e.PeerOpen? || e.PeerError? || e.IncomingConnection? || e.ConnectionClose? || e.VerifyReply?
    ensures LogsFollow(s, Step(p, s, e), e)
  {
  }

  lemma DataLog(p: Props, s: ChatState, frame: Frame)
    ensures LogsFollow(s, Step(p, s, Data(frame)), Data(frame))
  {
    if s.connection.Some? {
      match frame
      case ActionFrame(action) => ActionLog(p, s, action);
      case IdentificationFrame(g) => IdentificationLog(p, s, g);
      case _ => {}
    }
  }

  lemma ActionLog(p: Props, s: ChatState, action: string)
    requires s.connection.Some?
    ensures LogsFollow(s, OnAction(p, s, action), Data(ActionFrame(action)))
  {
    if action == REQUEST_IDENTIFICATION {
      ActionsSendNoText(s.outbox, [IdentificationFrame(p.identification)]);
    }
  }

  lemma IdentificationLog(p: Props, s: ChatState, g: Identification)
    requires s.connection.Some?
    ensures LogsFollow(s, OnIdentification(p, s, g), Data(IdentificationFrame(g)))
  {
    var r := OnIdentification(p, s, g);
    assert r.messages == s.messages && r.outbox == s.outbox && r.draft == s.draft;
  }

  lemma SendLog(s: ChatState)
    ensures LogsFollow(s, OnSendMessage(s), SendMessage)
  {
    if s.connection.Some? && s.draft != "" {
      var withText := s.outbox + [MessageFrame(s.draft)];
      assert withText[..|s.outbox|] == s.outbox;
      assert SentTexts(withText) == SentTexts(s.outbox) + [s.draft];
      assert OnSendMessage(s).outbox == withText + [ActionFrame(END_TYPING)];
      ActionsSendNoText(withText, [ActionFrame(END_TYPING)]);
      assert OwnTexts([Message(Me, s.draft)]) == [s.draft];
    }
  }

  lemma DraftLog(s: ChatState, text: string)
    ensures LogsFollow(s, SetDraft(s, text), DraftChanged(text))
  {
    if text != s.draft && s.connection.Some? && text != "" {
      ActionsSendNoText(s.outbox, [ActionFrame(START_TYPING)]);
    }
  }

  /**
   * The whole log of a connected party: after any events it is the log it had plus the
   * reference transcript, so its own entries and the other party's interleave in the
   * order they happened; and the `message` frames it sent are exactly its own entries.
   */
  lemma {:induction false} LogTrace(p: Props, s: ChatState, events: seq<Event>)
    requires s.connection.Some?
    ensures var r := Run(p, s, events);
      && r.messages == s.messages + Transcript(events, s.draft)
      && SentTexts(r.outbox) == SentTexts(s.outbox) + OwnTexts(Transcript(events, s.draft))
    decreases |events|
  {
    if |events| > 0 {
      var e := events[0];
      var next := Step(p, s, e);
      StepLog(p, s, e);
      LogTrace(p, next, events[1..]);
      var r := Run(p, s, events);
      assert events == [e] + events[1..];
      ComposeMessages(s.messages, next.messages, r.messages, e, events[1..], s.draft);
      ComposeSent(SentTexts(s.outbox), SentTexts(next.outbox), SentTexts(r.outbox), e, events[1..], s.draft);
    }
  }

  /** The log after a step and the rest of the transcript is the log before it and the whole transcript. */
  lemma ComposeMessages(log: seq<Message>, mid: seq<Message>, last: seq<Message>, e: Event, rest: seq<Event>,
                        draft: string)
    requires mid == log + Emitted(e, draft)
    requires last == mid + Transcript(rest, DraftNext(e, draft))
    ensures last == log + Transcript([e] + rest, draft)
  {
    var events := [e] + rest;
    assert events[0] == e && events[1..] == rest;
    assert Transcript(events, draft) == Emitted(e, draft) + Transcript(rest, DraftNext(e, draft));
  }

  /** The same composition for the sent texts. */
  lemma ComposeSent(before: seq<string>, mid: seq<string>, last: seq<string>, e: Event, rest: seq<Event>,
                    draft: string)
    requires mid == before + OwnTexts(Emitted(e, draft))
    requires last == mid + OwnTexts(Transcript(rest, DraftNext(e, draft)))
    ensures last == before + OwnTexts(Transcript([e] + rest, draft))
  {
    var events := [e] + rest;
    assert events[0] == e && events[1..] == rest;
    assert Transcript(events, draft) == Emitted(e, draft) + Transcript(rest, DraftNext(e, draft));
    OwnTextsAppend(Emitted(e, draft), Transcript(rest, DraftNext(e, draft)));
  }

  /** The texts this party sent in `message` frames are always exactly its own entries in the log, in order. */
  lemma {:induction false} SentAreOwn(p: Props, s: ChatState, events: seq<Event>)
    requires SentTexts(s.outbox) == OwnTexts(s.messages)
    ensures SentTexts(Run(p, s, events).outbox) == OwnTexts(Run(p, s, events).messages)
    decreases |events|
  {
    if |events| > 0 {
      StepLog(p, s, events[0]);
      if s.connection.Some? {
        OwnTextsAppend(s.messages, Emitted(events[0], s.draft));
      }
      SentAreOwn(p, Step(p, s, events[0]), events[1..]);
    }
  }

  /**
   * The reference reading of the typing indicator: `startTyping` turns it on,
   * `endTyping` and a closed connection turn it off, nothing else touches it.
   */
  function TypingAfter(events: seq<Event>, typing: bool): bool
    decreases |events|
  {
    if |events| == 0 then typing
    else
      var e := events[0];
      var now :=
        if e.Data? && e.frame.ActionFrame? && e.frame.action == START_TYPING then true
        else if e.Data? && e.frame.ActionFrame? && e.frame.action == END_TYPING then false
        else if e.ConnectionClose? then false
        else typing;
      TypingAfter(events[1..], now)
  }

  lemma StepTyping(p: Props, s: ChatState, e: Event)
    requires s.connection.Some?
    ensures Step(p, s, e).oppositeIsTyping == TypingAfter([e], s.oppositeIsTyping)
  {
    assert [e][1..] == [];
  }

  /** Once connected, the typing indicator always shows the last typing signal received. */
  lemma {:induction false} TypingFlagTrace(p: Props, s: ChatState, events: seq<Event>)
    requires s.peerReady && s.connection.Some?
    ensures Run(p, s, events).oppositeIsTyping == TypingAfter(events, s.oppositeIsTyping)
    decreases |events|
  {
    if |events| > 0 {
      StepTyping(p, s, events[0]);
      TypingFlagTrace(p, Step(p, s, events[0]), events[1..]);
    }
  }

  /** Only the typing timeout armed last can still announce the end of typing. */
  lemma OnlyLatestTimeoutEndsTyping(p: Props, s: ChatState, t: nat)
    requires Inv(p, s) && t + 1 != s.nextTimer
    ensures Step(p, s, TypingTimerFired(t)) == s
  {
  }

  /**
   * Typing debounce: a draft change supersedes every timeout armed before it, and the
   * one it arms (with a connection) ends typing exactly once when it fires.
   */
  lemma TypingDebounce(p: Props, s: ChatState, text: string, t: nat)
    requires Inv(p, s) && text != s.draft && t < s.nextTimer
    ensures var r := Step(p, s, DraftChanged(text));
      && Step(p, r, TypingTimerFired(t)) == r
      && (s.connection.Some? ==>
            Step(p, r, TypingTimerFired(s.nextTimer)).outbox == r.outbox + [ActionFrame(END_TYPING)])
      && (s.connection.None? ==> r.typingTimer.None?)
  {
  }

  /** The firings of the given typing timeouts, in order. */
  function TypingFirings(timers: seq<nat>): (events: seq<Event>)
    ensures |events| == |timers|
    ensures forall i :: 0 <= i < |timers| ==> events[i] == TypingTimerFired(timers[i])
    decreases |timers|
  {
    if |timers| == 0 then [] else [TypingTimerFired(timers[0])] + TypingFirings(timers[1..])
  }

  /** Any number of superseded typing timeouts firing send nothing and change nothing. */
  lemma {:induction false} StaleTypingFiringsSendNothing(p: Props, s: ChatState, timers: seq<nat>)
    requires Inv(p, s)
    requires forall i :: 0 <= i < |timers| ==> timers[i] + 1 != s.nextTimer
    ensures Run(p, s, TypingFirings(timers)) == s
    decreases |timers|
  {
    if |timers| > 0 {
      assert TypingFirings(timers)[1..] == TypingFirings(timers[1..]);
      OnlyLatestTimeoutEndsTyping(p, s, timers[0]);
      StaleTypingFiringsSendNothing(p, s, timers[1..]);
    }
  }

  /** A guest is marked 'valid' only by a successful verification reply. */
  lemma StepValid(p: Props, s: ChatState, e: Event)
    requires Step(p, s, e).verification == Valid && s.verification != Valid
    ensures e.VerifyReply? && e.reply.Success?
  {
    if e.Data? {
      DataNeverValidates(p, s, e.frame);
    }
  }

  lemma DataNeverValidates(p: Props, s: ChatState, frame: Frame)
    ensures OnData(p, s, frame).verification == s.verification || OnData(p, s, frame).verification == Pending
  {
  }

  lemma {:induction false} ValidNeedsSuccess(p: Props, s: ChatState, events: seq<Event>)
    requires Run(p, s, events).verification == Valid && s.verification != Valid
    ensures exists i :: 0 <= i < |events| && events[i].VerifyReply? && events[i].reply.Success?
    decreases |events|
  {
    var next := Step(p, s, events[0]);
    if next.verification == Valid {
      StepValid(p, s, events[0]);
    } else {
      ValidNeedsSuccess(p, next, events[1..]);
      var i :| 0 <= i < |events[1..]| && events[1..][i].VerifyReply? && events[1..][i].reply.Success?;
      assert events[i + 1] == events[1..][i];
    }
  }

  /**
   * A verification request goes out only with a stored guest claim, status 'pending'
   * and the wallet present, and it checks that guest's address and signature.
   */
  lemma StepVerifyGate(p: Props, s: ChatState, e: Event)
    ensures var r := Step(p, s, e);
      |r.verifyRequests| > |s.verifyRequests| ==>
        && r.guest.Some? && r.verification == Pending && r.trezorConnected
        && |r.verifyRequests| == |s.verifyRequests| + 1
        && r.verifyRequests[|s.verifyRequests|] ==
           VerifyRequest(r.guest.value.address, p.network, r.trezorPath, CHALLENGE, r.guest.value.signature)
  {
    if e.Data? {
      DataVerifyGate(p, s, e.frame);
    } else if !e.DeviceChanged? {
      StepKeepsRequests(p, s, e);
    }
  }

  lemma DataVerifyGate(p: Props, s: ChatState, frame: Frame)
    ensures var r := OnData(p, s, frame);
      |r.verifyRequests| > |s.verifyRequests| ==>
        && r.guest.Some? && r.verification == Pending && r.trezorConnected
        && |r.verifyRequests| == |s.verifyRequests| + 1
        && r.verifyRequests[|s.verifyRequests|] ==
           VerifyRequest(r.guest.value.address, p.network, r.trezorPath, CHALLENGE, r.guest.value.signature)
  {
    if s.connection.Some? && frame.ActionFrame? {
      assert OnData(p, s, frame).verifyRequests == s.verifyRequests;
    }
  }

  /** Only an identification frame and a device event can start a verification. */
  lemma StepKeepsRequests(p: Props, s: ChatState, e: Event)
    requires !e.Data? && !e.DeviceChanged?
    ensures Step(p, s, e).verifyRequests == s.verifyRequests
  {
    if e.SendMessage? || e.DraftChanged? || e.TypingTimerFired? || e.VerifyReply? {
      LocalKeepsRequests(p, s, e);
    }
  }

  lemma LocalKeepsRequests(p: Props, s: ChatState, e: Event)
    requires e.SendMessage? || e.DraftChanged? || e.TypingTimerFired? || e.VerifyReply?
    ensures Step(p, s, e).verifyRequests == s.verifyRequests
  {
  }

  /** A status of 'valid' does not survive a new identification frame. */
  lemma ValidIsNotSticky(p: Props, s: ChatState, g: Identification)
    requires s.connection.Some? && s.verification == Valid
    ensures Step(p, s, Data(IdentificationFrame(g))).verification == Pending
    ensures Step(p, s, Data(IdentificationFrame(g))).guest == Some(g)
  {
  }

  /**
   * The handshake between a starting party and a joining party whose frames are
   * delivered to each other: the joiner dials, each side asks for the other's claim
   * when the connection opens, each answers with its own claim, and each side then
   * asks its wallet to verify the other's signature of the challenge.
   */
  lemma Handshake(host: Props, joiner: Props, c: Connection)
    requires !host.identification.connecting && joiner.identification.connecting
    requires host.network == joiner.network && joiner.chatId == host.identification.id
    requires c == Connection(joiner.identification.id, Some(joiner.identification))
    ensures var h := Run(host, Initial(host), HostEvents(joiner, c));
      var j := Run(joiner, Initial(joiner), JoinerEvents(host));
      && h.connected && j.connected
      && h.connection == Some(Connection(joiner.identification.id, Some(joiner.identification)))
      && j.connection == Some(Connection(host.identification.id, Some(joiner.identification)))
      && h.outbox == [ActionFrame(REQUEST_IDENTIFICATION), IdentificationFrame(host.identification)]
      && j.outbox == [ActionFrame(REQUEST_IDENTIFICATION), IdentificationFrame(joiner.identification)]
      && h.guest == Some(joiner.identification) && h.verification == Pending
      && j.guest == Some(host.identification) && j.verification == Pending
      && h.verifyRequests == [VerifyRequest(joiner.identification.address, host.network,
                                            DevicePath(host.identification), CHALLENGE,
                                            joiner.identification.signature)]
      && j.verifyRequests == [VerifyRequest(host.identification.address, joiner.network,
                                            DevicePath(joiner.identification), CHALLENGE,
                                            host.identification.signature)]
  {
    HostSide(host, joiner, c);
    JoinerSide(host, joiner);
  }

  /** The starting party's events: open, accept, open the connection, then the joiner's two frames. */
  function HostEvents(joiner: Props, c: Connection): seq<Event>
  {
    [PeerOpen, IncomingConnection(c), ConnectionOpen,
     Data(ActionFrame(REQUEST_IDENTIFICATION)), Data(IdentificationFrame(joiner.identification))]
  }

  /** The joining party's events: open, open the connection, then the host's two frames. */
  function JoinerEvents(host: Props): seq<Event>
  {
    [PeerOpen, ConnectionOpen,
     Data(ActionFrame(REQUEST_IDENTIFICATION)), Data(IdentificationFrame(host.identification))]
  }

  lemma HostSide(host: Props, joiner: Props, c: Connection)
    requires !host.identification.connecting
    ensures var h := Run(host, Initial(host), HostEvents(joiner, c));
      && h.connected && h.connection == Some(c)
      && h.outbox == [ActionFrame(REQUEST_IDENTIFICATION), IdentificationFrame(host.identification)]
      && h.guest == Some(joiner.identification) && h.verification == Pending
      && h.verifyRequests == [VerifyRequest(joiner.identification.address, host.network,
                                            DevicePath(host.identification), CHALLENGE,
                                            joiner.identification.signature)]
  {
    var evs := HostEvents(joiner, c);
    var s0 := Initial(host);
    var s1 := Step(host, s0, evs[0]);
    var s2 := Step(host, s1, evs[1]);
    var s3 := Step(host, s2, evs[2]);
    var s4 := Step(host, s3, evs[3]);
    var s5 := Step(host, s4, evs[4]);
    assert s2.connection == Some(c);
    assert s3.outbox == [ActionFrame(REQUEST_IDENTIFICATION)];
    assert s4.outbox == [ActionFrame(REQUEST_IDENTIFICATION), IdentificationFrame(host.identification)];
    RunSteps(host, s0, evs);
    RunSteps(host, s1, evs[1..]);
    RunSteps(host, s2, evs[2..]);
    RunSteps(host, s3, evs[3..]);
    RunSteps(host, s4, evs[4..]);
    assert Run(host, s0, evs) == s5;
  }

  lemma JoinerSide(host: Props, joiner: Props)
    requires joiner.identification.connecting
    ensures var j := Run(joiner, Initial(joiner), JoinerEvents(host));
      && j.connected
      && j.connection == Some(Connection(joiner.chatId, Some(joiner.identification)))
      && j.outbox == [ActionFrame(REQUEST_IDENTIFICATION), IdentificationFrame(joiner.identification)]
      && j.guest == Some(host.identification) && j.verification == Pending
      && j.verifyRequests == [VerifyRequest(host.identification.address, joiner.network,
                                            DevicePath(joiner.identification), CHALLENGE,
                                            host.identification.signature)]
  {
    var evs := JoinerEvents(host);
    var s0 := Initial(joiner);
    var s1 := Step(joiner, s0, evs[0]);
    var s2 := Step(joiner, s1, evs[1]);
    var s3 := Step(joiner, s2, evs[2]);
    var s4 := Step(joiner, s3, evs[3]);
    assert s2.outbox == [ActionFrame(REQUEST_IDENTIFICATION)];
    assert s3.outbox == [ActionFrame(REQUEST_IDENTIFICATION), IdentificationFrame(joiner.identification)];
    RunSteps(joiner, s0, evs);
    RunSteps(joiner, s1, evs[1..]);
    RunSteps(joiner, s2, evs[2..]);
    RunSteps(joiner, s3, evs[3..]);
    assert Run(joiner, s0, evs) == s4;
  }

  /** Running a sequence is running its first event, then the rest. */
  lemma RunSteps(p: Props, s: ChatState, events: seq<Event>)
    requires |events| > 0
    ensures Run(p, s, events) == Run(p, Step(p, s, events[0]), events[1..])
    ensures |events| == 1 ==> Run(p, s, events) == Step(p, s, events[0])
  {
  }
}

=== FILE: error_handling.dfy ===
/**
 * The error composable of the Vue client (src/client/vue/composables/errorHandling.ts):
 * one shared current error and at most one live clear timeout, armed for 5000 ms. Timeouts are tokens;
 * a firing carries the token it was armed with.
 */
module ErrorHandling {
  import opened Wrappers

  /**
   * `currentError` (`None` for `null`), the live clear timeout if any, and the token
   * the next one gets. A timeout that fired or was cancelled is no longer live.
   */
  datatype ErrorState = ErrorState(currentError: Option<string>, pending: Option<nat>, nextTimer: nat)

  /** Tokens handed out are below `nextTimer`, and an error is shown exactly while its clear is live. */
  predicate Inv(s: ErrorState)
  {
    && (s.pending.Some? ==> s.pending.value < s.nextTimer)
    && (s.currentError.Some? <==> s.pending.Some?)
  }

  /**
   * `handleError(e)`: the error shows at once, the live timeout (if any) is cancelled
   * and exactly one fresh timeout is armed.
   */
  function HandleError(s: ErrorState, e: string): (r: ErrorState)
    ensures r.currentError == Some(e)
    ensures r.pending == Some(s.nextTimer) && r.nextTimer == s.nextTimer + 1
    ensures Inv(s) && s.pending.Some? ==> r.pending != s.pending
    ensures Inv(s) ==> Inv(r)
  {
    ErrorState(Some(e), Some(s.nextTimer), s.nextTimer + 1)
  }

  /** A timeout fires: the live one clears the error; a cancelled one never runs. */
  function Fire(s: ErrorState, t: nat): (r: ErrorState)
    ensures s.pending == Some(t) ==> r.currentError.None? && r.pending.None?
    ensures s.pending != Some(t) ==> r == s
    ensures Inv(s) ==> Inv(r)
  {
    if s.pending == Some(t) then s.(currentError := None, pending := None) else s
  }

  /** Reporting an error and a timeout firing. */
  datatype ErrorEvent = Report(message: string) | Fired(timer: nat)

  /** Every event keeps the invariant; a report shows its message, and a firing never shows a new one. */
  function Step(s: ErrorState, e: ErrorEvent): (r: ErrorState)
    ensures Inv(s) ==> Inv(r)
    ensures e.Report? ==> r.currentError == Some(e.message)
    ensures e.Fired? ==> r.currentError == s.currentError || r.currentError.None?
  {
    match e
    case Report(m) => HandleError(s, m)
    case Fired(t) => Fire(s, t)
  }

  function Run(s: ErrorState, events: seq<ErrorEvent>): ErrorState
    decreases |events|
  {
    if |events| == 0 then s else Run(Step(s, events[0]), events[1..])
  }

  /** A superseded error's timeout never clears the newer error. */
  lemma SupersededNeverClears(s: ErrorState, e: string, t: nat)
    requires Inv(s) && t < s.nextTimer
    ensures Fire(HandleError(s, e), t) == HandleError(s, e)
  {
  }

  /** The reference reading: the last error reported, or `prior` when none is. */
  function LastReported(events: seq<ErrorEvent>, prior: Option<string>): Option<string>
    decreases |events|
  {
    if |events| == 0 then prior
    else LastReported(events[1..], if events[0].Report? then Some(events[0].message) else prior)
  }

  /** Without a report the prior stands; with one, the prior does not matter. */
  lemma {:induction false} LastReportedFromNothing(events: seq<ErrorEvent>, prior: Option<string>)
    ensures LastReported(events, None).None? || LastReported(events, None) == LastReported(events, prior)
    decreases |events|
  {
    if |events| > 0 {
      if events[0].Report? {
        assert LastReported(events, None) == LastReported(events, prior);
      } else {
        LastReportedFromNothing(events[1..], prior);
      }
    }
  }

  /** Last writer wins: whatever error shows after any run is the one reported last. */
  lemma {:induction false} ShownIsLastReported(s: ErrorState, events: seq<ErrorEvent>)
    ensures Run(s, events).currentError.None?
      || Run(s, events).currentError == LastReported(events, s.currentError)
    decreases |events|
  {
    if |events| > 0 {
      var next := Step(s, events[0]);
      ShownIsLastReported(next, events[1..]);
      if events[0].Fired? && next.currentError.None? {
        LastReportedFromNothing(events[1..], s.currentError);
      }
    }
  }

  /** An error stays shown through any firings of timeouts other than its own. */
  lemma {:induction false} StaleFiringsKeepError(s: ErrorState, timers: seq<nat>)
    requires s.pending.Some? && forall i :: 0 <= i < |timers| ==> timers[i] != s.pending.value
    ensures Run(s, FiringsOf(timers)) == s
    decreases |timers|
  {
    if |timers| > 0 {
      assert FiringsOf(timers)[0] == Fired(timers[0]);
      assert FiringsOf(timers)[1..] == FiringsOf(timers[1..]);
      StaleFiringsKeepError(s, timers[1..]);
    }
  }

  /** The firings of the given timeouts, in order. */
  function FiringsOf(timers: seq<nat>): (events: seq<ErrorEvent>)
    ensures |events| == |timers|
    ensures forall i :: 0 <= i < |timers| ==> events[i] == Fired(timers[i])
    decreases |timers|
  {
    if |timers| == 0 then [] else [Fired(timers[0])] + FiringsOf(timers[1..])
  }
}

=== FILE: index.dfy ===
/**
 * The top-level component (src/client/react/Index.tsx): whether this party joins
 * an existing chat, on which network, which screen shows, the share link of a
 * starting party, and the error banner that clears itself after a delay.
 */
module App {
  import opened Wrappers
  import opened Types
  import opened SessionIds
  import opened Urls

  /**
   * The error banner: the shown message ("" for none), the pending clear timeout
   * (a token for the 5000 ms timeout) and the token the next one gets.
   */
  datatype Banner = Banner(currentError: string, timer: Option<nat>, nextTimer: nat)

  /** On mount the clear effect already runs once, for the empty message. */
  const INITIAL_BANNER: Banner := Banner("", Some(0), 1)

  /** Handed-out tokens are below `nextTimer`, and a shown message always has a pending clear. */
  predicate BannerInv(b: Banner)
  {
    && (b.timer.Some? ==> b.timer.value < b.nextTimer)
    && (b.currentError != "" ==> b.timer.Some?)
  }

  /**
   * `handleError(e)` sets the message. A different message re-runs the clear effect:
   * the pending timeout is cancelled and a fresh one armed. The same message again
   * changes nothing, so its earlier timeout still clears it.
   */
  function ReportError(b: Banner, e: string): (r: Banner)
    ensures r.currentError == e
    ensures e == b.currentError ==> r == b
    ensures e != b.currentError ==>
      && r.timer == Some(b.nextTimer) && r.nextTimer == b.nextTimer + 1
      && (b.timer.Some? && BannerInv(b) ==> r.timer != b.timer)
    ensures BannerInv(b) ==> BannerInv(r)
  {
    if e == b.currentError then b else Banner(e, Some(b.nextTimer), b.nextTimer + 1)
  }

  /**
   * A clear timeout fires. Only the pending one acts: it empties the message, and if
   * that changed the message the effect runs again and arms another timeout.
   * A cancelled timeout never fires.
   */
  function ClearFired(b: Banner, t: nat): (r: Banner)
    ensures b.timer != Some(t) ==> r == b
    ensures b.timer == Some(t) ==> r.currentError == ""
    ensures b.timer == Some(t) && b.currentError != "" ==> r.timer == Some(b.nextTimer)
    ensures b.timer == Some(t) && b.currentError == "" ==> r.timer.None?
    ensures BannerInv(b) ==> BannerInv(r)
  {
    if b.timer != Some(t) then b
    else if b.currentError == "" then b.(timer := None)
    else Banner("", Some(b.nextTimer), b.nextTimer + 1)
  }

  /** A message reported later is never cleared by the timeout of an earlier one. */
  lemma SupersededClearIsHarmless(b: Banner, e: string, t: nat)
    requires BannerInv(b) && e != b.currentError && t < b.nextTimer
    ensures ClearFired(ReportError(b, e), t) == ReportError(b, e)
  {
  }

  /**
   * The top-level state. `chatId` is the `c` query parameter the page was opened with
   * ("" when absent), `href` is the page's current address, and `identification` the
   * claim produced by authentication.
   */
  datatype AppState = AppState(
    trezorReady: bool,
    network: Option<Network>,
    identification: Option<Identification>,
    chatPrepared: bool,
    chatId: string,
    connecting: bool,
    href: string,
    banner: Banner)

  /**
   * The state when the page at `href` is opened. A non-empty `c` parameter makes this
   * party a joiner, whose network is read from the chat id before the first paint.
   */
  function Init(href: string): (s: AppState)
    ensures s.chatId == QueryGet(SearchOf(href), "c").GetOr("")
    ensures s.connecting <==> s.chatId != ""
    ensures s.connecting ==> s.network == Some(NetworkOfId(s.chatId))
    ensures !s.connecting ==> s.network.None?
    ensures s.identification.None? && !s.chatPrepared && !s.trezorReady && s.href == href
  {
    var chatId := QueryGet(SearchOf(href), "c").GetOr("");
    var connecting := chatId != "";
    AppState(false, if connecting then Some(NetworkOfId(chatId)) else None, None, false,
             chatId, connecting, href, INITIAL_BANNER)
  }

  /** The three screens, each shown under its own condition once the wallet library is ready. */
  predicate ShowsNetworkSelect(s: AppState)
  {
    s.trezorReady && !s.chatPrepared && !s.connecting && s.network.None?
  }

  predicate ShowsAuthenticate(s: AppState)
  {
    s.trezorReady && !s.chatPrepared && s.network.Some?
  }

  predicate ShowsChat(s: AppState)
  {
    s.trezorReady && s.chatPrepared && s.identification.Some? && s.network.Some?
  }

  /**
   * What holds in every reachable state: the role follows the chat id, a joiner's
   * network is the one its chat id names, a prepared chat has its claim and network,
   * and the banner keeps its invariant.
   */
  predicate AppInv(s: AppState)
  {
    && (s.connecting <==> s.chatId != "")
    && (s.connecting ==> s.network == Some(NetworkOfId(s.chatId)))
    && (s.chatPrepared ==> s.identification.Some? && s.network.Some?)
    && BannerInv(s.banner)
  }

  /** Once the wallet library is ready, exactly one of the three screens shows. */
  lemma ExactlyOneScreen(s: AppState)
    requires AppInv(s) && s.trezorReady
    ensures ShowsNetworkSelect(s) || ShowsAuthenticate(s) || ShowsChat(s)
    ensures !(ShowsNetworkSelect(s) && ShowsAuthenticate(s))
    ensures !(ShowsNetworkSelect(s) && ShowsChat(s))
    ensures !(ShowsAuthenticate(s) && ShowsChat(s))
  {
  }

  /**
   * `authenticated(payload)`: a starting party's address gains `c=<id>` so it can be
   * shared; a joiner's address is left alone; the claim is stored and the chat prepared.
   */
  function Authenticated(s: AppState, payload: Identification): (r: AppState)
    ensures r.identification == Some(payload) && r.chatPrepared
    ensures payload.connecting ==> r.href == s.href
    ensures !payload.connecting ==> r.href == ShareUrl(s.href, payload.id)
    ensures r == s.(identification := r.identification, chatPrepared := true, href := r.href)
  {
    var href := if payload.connecting then s.href else ShareUrl(s.href, payload.id);
    s.(identification := Some(payload), chatPrepared := true, href := href)
  }

  /** The events the top-level component reacts to. */
  datatype AppEvent =
    | InitResolved
    | InitRejected(message: string)
    | NetworkSelected(choice: Network)
    | AuthenticationDone(payload: Identification)
    | ErrorReported(message: string)
    | ClearTimerFired(timer: nat)

  /**
   * One event. A network choice comes from its screen and has no effect while that
   * screen is not shown. An authentication result comes from a signing request of the
   * authentication screen, which exists once the library is ready and a network is
   * known; a request still in flight when the chat is prepared completes unguarded,
   * so it prepares the chat again with the new claim and, for a starting party,
   * appends another `c` parameter.
   */
  function AppStep(s: AppState, e: AppEvent): (r: AppState)
    ensures AppInv(s) ==> AppInv(r)
    ensures r.chatId == s.chatId && r.connecting == s.connecting
    ensures e.NetworkSelected? && ShowsNetworkSelect(s) ==> r.network == Some(e.choice)
    ensures s.network.Some? ==> r.network == s.network
    ensures e.AuthenticationDone? && s.trezorReady && s.network.Some? ==>
      r.identification == Some(e.payload) && r.chatPrepared
  {
    match e
    case InitResolved => s.(trezorReady := true)
    case InitRejected(m) => s.(banner := ReportError(s.banner, m))
    case NetworkSelected(n) => if ShowsNetworkSelect(s) then s.(network := Some(n)) else s
    case AuthenticationDone(payload) => if s.trezorReady && s.network.Some? then Authenticated(s, payload) else s
    case ErrorReported(m) => s.(banner := ReportError(s.banner, m))
    case ClearTimerFired(t) => s.(banner := ClearFired(s.banner, t))
  }

  lemma InitInv(href: string)
    ensures AppInv(Init(href))
  {
  }

  /**
   * The share link works end to end: after a starting party authenticates with a session
   * id built for its network, a party opening the updated address joins that chat id on
   * that network. The address must have no fragment, no bare trailing `?` and no `c`
   * parameter, and the id's words no `#` or `&`.
   */
  lemma JoinLink(s: AppState, payload: Identification, word: string, suffix: string)
    requires ShowsAuthenticate(s) && !payload.connecting
    requires payload.id == SessionId(s.network.value, word, suffix)
    requires '#' !in s.href && ('?' in s.href ==> SearchOf(s.href) != "")
    requires QueryGet(SearchOf(s.href), "c") == None
    requires '#' !in word && '&' !in word && '#' !in suffix && '&' !in suffix
    ensures var joiner := Init(AppStep(s, AuthenticationDone(payload)).href);
      && joiner.connecting && joiner.chatId == payload.id && joiner.network == s.network
  {
    var network := s.network.value;
    var id := payload.id;
    assert id == NetworkTag(network) + "-" + word + "-" + suffix;
    assert '#' !in NetworkTag(network) && '&' !in NetworkTag(network);
    assert '#' !in id && '&' !in id;
    ShareUrlRoundTrip(s.href, id);
    NetworkOfSessionId(network, word, suffix);
  }
}

=== FILE: jsnumbers.dfy ===
/**
 * The slice of JavaScript number semantics the application relies on:
 * `parseInt(text)` without a radix, `n + 1`, and number-to-string conversion
 * inside template literals. Numbers are integers or NaN; the model does not
 * lose precision above 2^53.
 */
module JsNumbers {
  /** A JavaScript number as the application produces it: an integer or NaN. */
  datatype JsNumber = NaN | Num(value: int)

  /** `n + 1`; NaN absorbs the addition. */
  function Inc(n: JsNumber): (r: JsNumber)
    ensures r.NaN? <==> n.NaN?
    ensures n.Num? ==> r.value - n.value == 1
  {
    match n
    case NaN => NaN
    case Num(v) => Num(v + 1)
  }

  /**
   * The white space and line terminators `parseInt` skips, by code point: tab,
   * line feed, vertical tab, form feed and carriage return (9-13), the byte-order
   * mark, the line and paragraph separators, and every space separator of the
   * Unicode Zs category.
   */
  predicate IsWhitespace(c: char)
  {
    var k := c as int;
    || (9 <= k <= 13) || k == 0x20 || k == 0xA0 || k == 0x1680
    || (0x2000 <= k <= 0x200A) || k == 0x2028 || k == 0x2029 || k == 0x202F
    || k == 0x205F || k == 0x3000 || k == 0xFEFF
  }

  /** `s` with its leading white space removed. */
  function TrimStart(s: string): string
    decreases |s|
  {
    if |s| > 0 && IsWhitespace(s[0]) then TrimStart(s[1..]) else s
  }

  /** Text that does not start with white space is left as it is. */
  lemma TrimStartKeeps(s: string)
    requires |s| > 0 && !IsWhitespace(s[0])
    ensures TrimStart(s) == s
  {
  }

  /** The value of an alphanumeric digit (0-9, then a-z / A-Z as 10-35); 36 for any other character. */
  function DigitValue(c: char): (d: nat)
    ensures d <= 36
  {
    var k := c as int;
    if 0x30 <= k <= 0x39 then k - 0x30        // '0'..'9'
    else if 0x61 <= k <= 0x7A then k - 0x61 + 10  // 'a'..'z'
    else if 0x41 <= k <= 0x5A then k - 0x41 + 10  // 'A'..'Z'
    else 36
  }

  predicate IsDigitIn(c: char, radix: nat)
  {
    DigitValue(c) < radix
  }

  predicate AllDigitsIn(s: string, radix: nat)
  {
    forall i :: 0 <= i < |s| ==> IsDigitIn(s[i], radix)
  }

  /** The longest prefix of `s` made of digits of `radix`. */
  function DigitPrefix(s: string, radix: nat): string
    decreases |s|
  {
    if |s| > 0 && IsDigitIn(s[0], radix) then [s[0]] + DigitPrefix(s[1..], radix) else ""
  }

  /** The positional value of a digit string in `radix`, most significant digit first. */
  function DigitsValue(ds: string, radix: nat): nat
    decreases |ds|
  {
    if |ds| == 0 then 0
    else DigitsValue(ds[..|ds| - 1], radix) * radix + DigitValue(ds[|ds| - 1])
  }

  /**
   * `parseInt(s)` with no radix argument: skip leading white space, read an
   * optional sign, switch to radix 16 after a `0x` / `0X` prefix, then read the
   * longest run of digits; NaN when that run is empty.
   */
  function ParseInt(s: string): JsNumber
  {
    ParseSigned(TrimStart(s))
  }

  /**
   * What `parseInt` reads: text holding no decimal digit gives NaN, and text that starts
   * with a decimal digit (and no `0x`) gives the value of its longest run of decimal digits.
   */
  lemma {:induction false} ParseIntReads(s: string)
    ensures NoDecimalDigit(s) ==> ParseInt(s).NaN?
    ensures |s| > 0 && IsDigitIn(s[0], 10) && !HasHexPrefix(s) ==>
      ParseInt(s) == Num(DigitsValue(DigitPrefix(s, 10), 10))
  {
    NoDigitParsesToNaN(s);
    LeadingDigitIsNotTrimmed(s);
  }

  /** A leading digit is neither white space nor a sign, so the digits are read from the start. */
  lemma LeadingDigitIsNotTrimmed(s: string)
    ensures |s| > 0 && IsDigitIn(s[0], 10) ==> TrimStart(s) == s && s[0] != '-' && s[0] != '+'
  {
    if |s| > 0 && IsDigitIn(s[0], 10) {
      DecimalDigitIsAscii(s[0]);
      TrimStartKeeps(s);
    }
  }

  /** Text holding no decimal digit. */
  predicate NoDecimalDigit(s: string)
  {
    forall i :: 0 <= i < |s| ==> !IsDigitIn(s[i], 10)
  }

  /** Without a decimal digit there is neither a hex prefix nor a digit run to read, so the result is NaN. */
  lemma {:induction false} NoDigitParsesToNaN(s: string)
    ensures NoDecimalDigit(s) ==> ParseSigned(TrimStart(s)).NaN?
    decreases |s|
  {
    if NoDecimalDigit(s) {
      if |s| > 0 && IsWhitespace(s[0]) {
        assert NoDecimalDigit(s[1..]) by {
          forall i | 0 <= i < |s[1..]| ensures !IsDigitIn(s[1..][i], 10) {
            assert s[1..][i] == s[i + 1];
          }
        }
        NoDigitParsesToNaN(s[1..]);
      } else {
        var t := TrimStart(s);
        assert t == s;
        if |t| > 0 && (t[0] == '-' || t[0] == '+') {
          assert NoDecimalDigit(t[1..]) by {
            forall i | 0 <= i < |t[1..]| ensures !IsDigitIn(t[1..][i], 10) {
              assert t[1..][i] == t[i + 1];
            }
          }
          NoDigitMagnitude(t[1..]);
        } else {
          NoDigitMagnitude(t);
        }
      }
    }
  }

  lemma NoDigitMagnitude(u: string)
    requires NoDecimalDigit(u)
    ensures ParseMagnitude(u).NaN?
  {
    if |u| > 0 {
      assert !IsDigitIn(u[0], 10);
      assert DigitValue('0') == 0;
    }
  }

  /** The sign step of `parseInt`, on text that starts with no white space. */
  function ParseSigned(t: string): JsNumber
  {
    if |t| > 0 && t[0] == '-' then Negate(ParseMagnitude(t[1..]))
    else if |t| > 0 && t[0] == '+' then ParseMagnitude(t[1..])
    else ParseMagnitude(t)
  }

  /** `-n`; NaN stays NaN. */
  function Negate(n: JsNumber): JsNumber
  {
    match n
    case NaN => NaN
    case Num(v) => Num(0 - v)
  }

  /** The unsigned step of `parseInt`: radix 16 after a `0x` / `0X` prefix, otherwise radix 10. */
  function ParseMagnitude(u: string): JsNumber
  {
    if HasHexPrefix(u) then LeadingDigits(u[2..], 16) else LeadingDigits(u, 10)
  }

  /** Whether the unsigned part of the text starts with `0x` or `0X`. */
  predicate HasHexPrefix(u: string)
  {
    |u| >= 2 && u[0] == '0' && (u[1] == 'x' || u[1] == 'X')
  }

  /** The value of the longest run of `radix` digits at the start of `v`; NaN when there is none. */
  function LeadingDigits(v: string, radix: nat): JsNumber
  {
    var ds := DigitPrefix(v, radix);
    if |ds| == 0 then NaN else Num(DigitsValue(ds, radix))
  }

  function DigitChar(d: nat): (c: char)
    requires d < 10
    ensures IsDigitIn(c, 10) && DigitValue(c) == d
  {
    (0x30 + d) as char
  }

  /** The decimal numeral of a natural number, without leading zeros. */
  function DecimalString(n: nat): (r: string)
    ensures |r| >= 1 && AllDigitsIn(r, 10)
    decreases n
  {
    if n < 10 then [DigitChar(n)] else DecimalString(n / 10) + [DigitChar(n % 10)]
  }

  /** `String(n)`, as a template literal renders a number. */
  function ToString(n: JsNumber): (r: string)
    ensures n.NaN? ==> r == "NaN"
    ensures n.Num? && n.value >= 0 ==> |r| >= 1 && AllDigitsIn(r, 10)
    ensures n.Num? && n.value < 0 ==> |r| >= 2 && r[0] == '-' && AllDigitsIn(r[1..], 10)
    ensures '/' !in r
  {
    match n
    case NaN => "NaN"
    case Num(v) => if v < 0 then "-" + DecimalString(-v) else DecimalString(v)
  }

  /** Reading back a decimal numeral gives the number it was written from. */
  lemma {:induction false} DecimalStringValue(n: nat)
    ensures DigitsValue(DecimalString(n), 10) == n
    decreases n
  {
    if n >= 10 {
      var s := DecimalString(n);
      assert s[..|s| - 1] == DecimalString(n / 10);
      DecimalStringValue(n / 10);
    }
  }

  /** A decimal digit is an ASCII digit, so neither white space, a sign nor a hex marker. */
  lemma DecimalDigitIsAscii(c: char)
    requires IsDigitIn(c, 10)
    ensures 0x30 <= c as int <= 0x39
    ensures !IsWhitespace(c)
  {
  }

  /** A string made only of digits is its own longest digit prefix. */
  lemma {:induction false} DigitPrefixOfDigits(ds: string, radix: nat)
    requires AllDigitsIn(ds, radix)
    ensures DigitPrefix(ds, radix) == ds
    decreases |ds|
  {
    if |ds| > 0 {
      DigitPrefixOfDigits(ds[1..], radix);
      assert [ds[0]] + ds[1..] == ds;
    }
  }

  /** The unsigned step reads a whole non-empty decimal digit string. */
  lemma MagnitudeOfDecimalDigits(ds: string)
    requires |ds| >= 1 && AllDigitsIn(ds, 10)
    ensures ParseMagnitude(ds) == Num(DigitsValue(ds, 10))
  {
    if |ds| >= 2 {
      DecimalDigitIsAscii(ds[1]);
    }
    assert !HasHexPrefix(ds);
    DigitPrefixOfDigits(ds, 10);
  }

  /** A non-empty string of decimal digits parses to its positional value. */
  lemma ParseDecimalDigits(ds: string)
    requires |ds| >= 1 && AllDigitsIn(ds, 10)
    ensures ParseInt(ds) == Num(DigitsValue(ds, 10))
  {
    DecimalDigitIsAscii(ds[0]);
    TrimStartKeeps(ds);
    MagnitudeOfDecimalDigits(ds);
  }

  /** A minus sign followed by decimal digits parses to the negated value. */
  lemma ParseNegativeDecimal(ds: string)
    requires |ds| >= 1 && AllDigitsIn(ds, 10)
    ensures ParseInt("-" + ds) == Num(0 - DigitsValue(ds, 10))
  {
    var s := "-" + ds;
    assert s[0] == '-';
    assert !IsWhitespace('-');
    TrimStartKeeps(s);
    assert ParseInt(s) == ParseSigned(s);
    assert s[0] == '-' && s[1..] == ds;
    assert ParseSigned(s) == Negate(ParseMagnitude(ds));
    MagnitudeOfDecimalDigits(ds);
  }

  /** Round trip: `parseInt(String(n)) === n` for every integer `n`. */
  lemma ParseIntToString(n: int)
    ensures ParseInt(ToString(Num(n))) == Num(n)
  {
    if n < 0 {
      NegativeRoundTrip(n);
    } else {
      NonNegativeRoundTrip(n);
    }
  }

  lemma NegativeRoundTrip(n: int)
    requires n < 0
    ensures ParseInt(ToString(Num(n))) == Num(n)
  {
    var d := DecimalString(-n);
    assert ToString(Num(n)) == "-" + d;
    DecimalStringValue(-n);
    ParseNegativeDecimal(d);
  }

  lemma NonNegativeRoundTrip(n: int)
    requires n >= 0
    ensures ParseInt(ToString(Num(n))) == Num(n)
  {
    var d := DecimalString(n);
    assert ToString(Num(n)) == d;
    DecimalStringValue(n);
    ParseDecimalDigits(d);
  }
}

=== FILE: session_ids.dfy ===
/**
 * The session id `<network>-<word>-<suffix>`: built by the party starting a
 * chat (src/client/react/components/Authenticate.tsx) and read back by the
 * joining party to pick its network (src/client/react/Index.tsx).
 */
module SessionIds {
  import opened Strings
  import opened Types

  /** The id a new chat gets: the network tag, a domain word and a domain suffix joined by `-`. */
  function SessionId(network: Network, word: string, suffix: string): (id: string)
    ensures |id| > |NetworkTag(network)|
    ensures id[..|NetworkTag(network)|] == NetworkTag(network)
    ensures id[|NetworkTag(network)|] == '-'
  {
    NetworkTag(network) + "-" + word + "-" + suffix
  }

  /** The network of a chat being joined: Mainnet exactly when the id's first `-` piece is `BTC`. */
  function NetworkOfId(chatId: string): (n: Network)
    ensures n == Mainnet <==> chatId == "BTC" || (|chatId| >= 4 && chatId[..4] == "BTC-")
  {
    MainnetPrefix(chatId);
    if Split(chatId, '-')[0] == NetworkTag(Mainnet) then Mainnet else Testnet
  }

  /** The first `-` piece is `BTC` exactly when the id is `BTC` or starts with `BTC-`. */
  lemma MainnetPrefix(chatId: string)
    ensures Split(chatId, '-')[0] == "BTC" <==> chatId == "BTC" || (|chatId| >= 4 && chatId[..4] == "BTC-")
  {
    var tag := NetworkTag(Mainnet);
    BeforeIsPrefix(chatId, '-', tag);
    PrefixThenSeparator(chatId, tag, '-');
    assert tag + ['-'] == "BTC-";
  }

  /** Round trip: the joining party reads back the network the id was built for. */
  lemma NetworkOfSessionId(network: Network, word: string, suffix: string)
    ensures NetworkOfId(SessionId(network, word, suffix)) == network
  {
    var tag := NetworkTag(network);
    var rest := word + "-" + suffix;
    assert SessionId(network, word, suffix) == tag + ['-'] + rest;
    SplitConcat(tag, rest, '-');
    SplitNoSeparator(tag, '-');
    assert Split(tag + ['-'] + rest, '-')[0] == tag;
  }
}

=== FILE: strings.dfy ===
/**
 * JavaScript string splitting with a one-character separator, the only string
 * parsing the application performs (account paths, address paths, session ids,
 * query strings).
 */
module Strings {

  /**
   * `s.split(sep)` in JavaScript: the maximal separator-free pieces of `s`, in order.
   * The empty string splits into one empty piece, and adjacent separators yield empty pieces.
   */
  function Split(s: string, sep: char): (parts: seq<string>)
    ensures |parts| >= 1
    ensures forall i :: 0 <= i < |parts| ==> sep !in parts[i]
    decreases |s|
  {
    if |s| == 0 then [""] else Prepend(s[0], Split(s[1..], sep), sep)
  }

  /** The pieces of `[c] + t`, given the pieces of `t`: a separator opens a new empty piece, any other character extends the first. */
  function Prepend(c: char, parts: seq<string>, sep: char): (r: seq<string>)
    requires |parts| >= 1
    ensures |r| >= 1
  {
    if c == sep then [""] + parts else [[c] + parts[0]] + parts[1..]
  }

  /** Prepending a character only touches the first piece, so it commutes with appending pieces. */
  lemma PrependAppend(c: char, parts: seq<string>, more: seq<string>, sep: char)
    requires |parts| >= 1
    ensures Prepend(c, parts + more, sep) == Prepend(c, parts, sep) + more
  {
    if c != sep {
      assert (parts + more)[1..] == parts[1..] + more;
    }
  }

  /** A split has one piece more than the string has separators. */
  lemma {:induction false} SplitCount(s: string, sep: char)
    ensures |Split(s, sep)| == multiset(s)[sep] + 1
    decreases |s|
  {
    if |s| > 0 {
      SplitCount(s[1..], sep);
      assert s == [s[0]] + s[1..];
      assert multiset(s) == multiset([s[0]]) + multiset(s[1..]);
    }
  }

  /** `parts.join(sep)` in JavaScript, the reference inverse of `Split`. */
  function Join(parts: seq<string>, sep: char): string
    requires |parts| >= 1
    decreases |parts|
  {
    if |parts| == 1 then parts[0] else parts[0] + [sep] + Join(parts[1..], sep)
  }

  /** The last element of a non-empty sequence: JavaScript's `parts.at(-1)`. */
  function Last<T>(parts: seq<T>): T
    requires |parts| >= 1
  {
    parts[|parts| - 1]
  }

  /** The text before the first `sep`, or all of `s` when it holds none. */
  function Before(s: string, sep: char): (r: string)
    ensures sep !in r
  {
    Split(s, sep)[0]
  }

  /** The text before the first `sep` is `t` exactly when `s` is `t`, or `t` followed by `sep` and more. */
  lemma {:induction false} BeforeIsPrefix(s: string, sep: char, t: string)
    requires sep !in t
    ensures Split(s, sep)[0] == t <==> s == t || (|s| > |t| && s[..|t|] == t && s[|t|] == sep)
    decreases |t|
  {
    if |s| > 0 && s[0] != sep && |t| > 0 {
      assert Split(s, sep)[0] == [s[0]] + Split(s[1..], sep)[0];
      BeforeIsPrefix(s[1..], sep, t[1..]);
      assert s == [s[0]] + s[1..] && t == [t[0]] + t[1..];
      if |s| > |t| {
        assert s[..|t|] == [s[0]] + s[1..][..|t| - 1];
      }
    } else if |s| > 0 && s[0] != sep {
      assert Split(s, sep)[0] == [s[0]] + Split(s[1..], sep)[0];
    } else if |s| > 0 && |t| > 0 {
      if |s| >= |t| {
        assert s[..|t|][0] == s[0];
      }
    }
  }

  /** `t` then `sep` starting `s`, said two ways. */
  lemma PrefixThenSeparator(s: string, t: string, sep: char)
    ensures (|s| > |t| && s[..|t|] == t && s[|t|] == sep) <==> (|s| >= |t| + 1 && s[..|t| + 1] == t + [sep])
  {
    if |s| >= |t| + 1 {
      assert s[..|t| + 1] == s[..|t|] + [s[|t|]];
    }
  }

  /** The text after the first `sep` (later separators included), or "" when `s` holds none. */
  function After(s: string, sep: char): string
  {
    var parts := Split(s, sep);
    if |parts| == 1 then "" else Join(parts[1..], sep)
  }

  /** Joining the pieces of a split with the same separator gives back the original string. */
  lemma {:induction false} JoinSplit(s: string, sep: char)
    ensures Join(Split(s, sep), sep) == s
    decreases |s|
  {
    if |s| == 0 {
    } else if s[0] == sep {
      JoinSplit(s[1..], sep);
      assert Split(s, sep) == [""] + Split(s[1..], sep);
      assert s == [sep] + s[1..];
    } else {
      var rest := Split(s[1..], sep);
      JoinSplit(s[1..], sep);
      var parts := [[s[0]] + rest[0]] + rest[1..];
      assert Split(s, sep) == parts;
      if |rest| == 1 {
        assert Join(parts, sep) == [s[0]] + rest[0];
      } else {
        assert parts[1..] == rest[1..];
        assert Join(rest, sep) == rest[0] + [sep] + Join(rest[1..], sep);
        assert Join(parts, sep) == [s[0]] + rest[0] + [sep] + Join(rest[1..], sep);
      }
      assert s == [s[0]] + s[1..];
    }
  }

  /** A string holding no separator splits into itself alone. */
  lemma {:induction false} SplitNoSeparator(s: string, sep: char)
    requires sep !in s
    ensures Split(s, sep) == [s]
    decreases |s|
  {
    if |s| > 0 {
      assert sep !in s[1..] by {
        forall i | 0 <= i < |s[1..]| ensures s[1..][i] != sep {
          assert s[1..][i] == s[i + 1];
        }
      }
      SplitNoSeparator(s[1..], sep);
      assert [s[0]] + s[1..] == s;
    }
  }

  /** Splitting at a separator splits the two sides independently. */
  lemma {:induction false} SplitConcat(a: string, b: string, sep: char)
    ensures Split(a + [sep] + b, sep) == Split(a, sep) + Split(b, sep)
    decreases |a|
  {
    var s := a + [sep] + b;
    if |a| == 0 {
      assert s[0] == sep && s[1..] == b;
    } else {
      assert s[0] == a[0] && s[1..] == a[1..] + [sep] + b;
      SplitConcat(a[1..], b, sep);
      PrependAppend(a[0], Split(a[1..], sep), Split(b, sep), sep);
    }
  }

  /** For a key without the separator, `Before` and `After` take `key + sep + value` apart. */
  lemma BeforeAfter(key: string, value: string, sep: char)
    requires sep !in key
    ensures Before(key + [sep] + value, sep) == key
    ensures After(key + [sep] + value, sep) == value
  {
    SplitConcat(key, value, sep);
    SplitNoSeparator(key, sep);
    var parts := Split(key + [sep] + value, sep);
    assert parts == [key] + Split(value, sep);
    assert parts[1..] == Split(value, sep);
    JoinSplit(value, sep);
  }

  /** The last piece of `a + sep + b` is the last piece of `b`. */
  lemma LastPieceOfConcat(a: string, b: string, sep: char)
    ensures Last(Split(a + [sep] + b, sep)) == Last(Split(b, sep))
  {
    SplitConcat(a, b, sep);
  }
}

=== FILE: types.dfy ===
/** The records exchanged between the components (src/client/types.ts). */
module Types {
  import opened Wrappers
  import opened JsNumbers

  /** The coin network; its tag is the string value of the enum member. */
  datatype Network = Testnet | Mainnet

  function NetworkTag(n: Network): string
  {
    match n
    case Testnet => "TEST"
    case Mainnet => "BTC"
  }

  /** Who wrote a chat message. */
  datatype Authors = Me | Opposite

  /** A device id as the wallet library reports it: a string, `null` or `undefined`. */
  datatype DeviceId = NullId | UndefinedId | IdOf(value: string)

  /** JavaScript truthiness of a device id: a non-empty string. */
  predicate Truthy(id: DeviceId)
  {
    id.IdOf? && id.value != ""
  }

  /** A connected wallet; `deviceLabel` is the label the owner gave it. */
  datatype Device = Device(id: DeviceId, deviceLabel: string, name: string, path: string)

  /** A party's identity claim; `connecting` is true for the party joining an existing chat. */
  datatype Identification = Identification(
    id: string,
    address: string,
    signature: string,
    connecting: bool,
    device: Option<Device>)

  /** `identification.device?.id`: `undefined` when the claim carries no device. */
  function LocalDeviceId(identification: Identification): DeviceId
  {
    match identification.device
    case None => UndefinedId
    case Some(d) => d.id
  }

  datatype Message = Message(author: Authors, text: string)

  /** A wallet account; `accountType` is the human-readable label and `number` is 1-based. */
  datatype Account = Account(path: string, number: JsNumber, accountType: string)

  datatype Address = Address(address: string, path: string)

  /** The phrase every party signs and every party verifies. */
  const CHALLENGE: string := "I wanna chat!"

  /** The device event types the components distinguish; every other type is `OtherDeviceEvent`. */
  datatype DeviceEventKind = DeviceConnect | DeviceDisconnect | OtherDeviceEvent(name: string)

  /** A device event of the wallet library with its device payload. */
  datatype DeviceEvent = DeviceEvent(kind: DeviceEventKind, payload: Device)
}

=== FILE: urls.dfy ===
/**
 * The parts of the browser's URL handling the application relies on: the
 * `search` part of a location and `URLSearchParams.get`, without percent-decoding.
 */
module Urls {
  import opened Wrappers
  import opened Strings

  /** `location.search`: the query after the first `?` and before any `#`, with its `?`; "" when that query is empty. */
  function SearchOf(url: string): (search: string)
    ensures search == "" || (|search| > 1 && search[0] == '?')
  {
    var query := After(Before(url, '#'), '?');
    if query == "" then "" else "?" + query
  }

  /**
   * `new URLSearchParams(search).get(key)`: one leading `?` is dropped, the rest is cut
   * at `&`, and the value of the first non-empty pair whose name is `key` is returned.
   */
  function QueryGet(search: string, key: string): (r: Option<string>)
    ensures r.Some? <==> HasPairNamed(Split(QueryOf(search), '&'), key)
    ensures r.Some? ==> ValueOfPairNamed(Split(QueryOf(search), '&'), key, r.value)
  {
    FirstValueFinds(Split(QueryOf(search), '&'), key);
    FirstValue(Split(QueryOf(search), '&'), key)
  }

  /** Some pair is named `key`. */
  predicate HasPairNamed(pairs: seq<string>, key: string)
  {
    exists i :: 0 <= i < |pairs| && Named(pairs[i], key)
  }

  /** Some pair named `key` has the value `value`. */
  predicate ValueOfPairNamed(pairs: seq<string>, key: string, value: string)
  {
    exists i :: 0 <= i < |pairs| && Named(pairs[i], key) && After(pairs[i], '=') == value
  }

  /** The query text of a search string: without its leading `?`, if it has one. */
  function QueryOf(search: string): (query: string)
    ensures search == query || search == "?" + query
  {
    if |search| > 0 && search[0] == '?' then search[1..] else search
  }

  /** A non-empty `name=value` pair whose name is `key`. */
  predicate Named(pair: string, key: string)
  {
    pair != "" && Before(pair, '=') == key
  }

  /**
   * The value of the first non-empty `name=value` pair named `key`; a pair without `=` has value "".
   */
  function FirstValue(pairs: seq<string>, key: string): Option<string>
    decreases |pairs|
  {
    if |pairs| == 0 then None
    else if Named(pairs[0], key) then Some(After(pairs[0], '='))
    else FirstValue(pairs[1..], key)
  }

  /** There is a value exactly when some pair is named `key`, and it is the value of such a pair. */
  lemma {:induction false} FirstValueFinds(pairs: seq<string>, key: string)
    ensures FirstValue(pairs, key).Some? <==> HasPairNamed(pairs, key)
    ensures FirstValue(pairs, key).Some? ==> ValueOfPairNamed(pairs, key, FirstValue(pairs, key).value)
    decreases |pairs|
  {
    if |pairs| > 0 && !Named(pairs[0], key) {
      FirstValueFinds(pairs[1..], key);
      assert forall i :: 0 <= i < |pairs[1..]| ==> pairs[1..][i] == pairs[i + 1];
      assert forall i :: 0 <= i < |pairs| && Named(pairs[i], key) ==> 0 < i;
    } else if |pairs| > 0 {
      assert Named(pairs[0], key) && After(pairs[0], '=') == FirstValue(pairs, key).value;
    }
  }

  /** The first match in `a + b` is the first match in `a`, or failing that the first in `b`. */
  lemma {:induction false} FirstValueAppend(a: seq<string>, b: seq<string>, key: string)
    ensures FirstValue(a + b, key) == if FirstValue(a, key).Some? then FirstValue(a, key) else FirstValue(b, key)
    decreases |a|
  {
    if |a| == 0 {
      assert a + b == b;
    } else {
      assert (a + b)[0] == a[0] && (a + b)[1..] == a[1..] + b;
      FirstValueAppend(a[1..], b, key);
    }
  }

  /**
   * The link a starting party shares: its current address with `c=<id>` appended,
   * after `&` when the address has a query and after `?` otherwise.
   */
  function ShareUrl(href: string, id: string): (url: string)
    ensures |url| > |href| + 2 && url[..|href|] == href
    ensures url[|href|] == (if SearchOf(href) != "" then '&' else '?') && url[|href| + 1..] == "c=" + id
  {
    href + (if SearchOf(href) != "" then "&" else "?") + "c=" + id
  }

  /** A string holding `sep` is its text before `sep`, `sep`, and its text after. */
  lemma BeforeSepAfter(s: string, sep: char)
    requires sep in s
    ensures s == Before(s, sep) + [sep] + After(s, sep)
  {
    var parts := Split(s, sep);
    SplitCount(s, sep);
    assert |parts| > 1;
    JoinSplit(s, sep);
    assert Join(parts, sep) == parts[0] + [sep] + Join(parts[1..], sep);
  }

  /** Text without `sep` has nothing after a `sep`. */
  lemma AfterWithoutSep(s: string, sep: char)
    requires sep !in s
    ensures Before(s, sep) == s && After(s, sep) == ""
  {
    SplitNoSeparator(s, sep);
  }

  /** The single pair `key=value`, when `value` holds no `&`, yields `value`. */
  lemma SinglePair(key: string, value: string)
    requires '=' !in key && key != "" && '&' !in value && '&' !in key
    ensures FirstValue(Split(key + "=" + value, '&'), key) == Some(value)
    ensures FirstValue(Split(key + ['='] + value, '&'), key) == Some(value)
  {
    var pair := key + "=" + value;
    assert pair == key + ['='] + value;
    assert '&' !in pair;
    SplitNoSeparator(pair, '&');
    BeforeAfter(key, value, '=');
  }

  /**
   * Round trip of the share link: the party opening the link reads back, as its `c`
   * parameter, exactly the id that was appended, provided the address had no `c`
   * parameter, no fragment and no bare trailing `?`, and the id holds no `&` or `#`.
   */
  lemma ShareUrlRoundTrip(href: string, id: string)
    requires '#' !in href && '#' !in id && '&' !in id
    requires '?' in href ==> SearchOf(href) != ""
    requires QueryGet(SearchOf(href), "c") == None
    ensures QueryGet(SearchOf(ShareUrl(href, id)), "c") == Some(id)
  {
    var url := ShareUrl(href, id);
    assert '#' !in url;
    AfterWithoutSep(url, '#');
    if '?' !in href {
      FirstQueryRoundTrip(href, id);
    } else {
      AfterWithoutSep(href, '#');
      AddedQueryRoundTrip(href, id);
    }
  }

  /** An address without a query gets `?c=<id>`. */
  lemma FirstQueryRoundTrip(href: string, id: string)
    requires '#' !in href && '?' !in href && '&' !in id
    requires Before(ShareUrl(href, id), '#') == ShareUrl(href, id)
    ensures QueryGet(SearchOf(ShareUrl(href, id)), "c") == Some(id)
  {
    var param := "c=" + id;
    AfterWithoutSep(href, '#');
    AfterWithoutSep(href, '?');
    assert ShareUrl(href, id) == href + ['?'] + param;
    SearchAfterMark(href, param);
    QueryOfSearch(param, "c");
    SinglePair("c", id);
  }

  /** An address with a non-empty query and no `c` parameter gets `&c=<id>`. */
  lemma AddedQueryRoundTrip(href: string, id: string)
    requires '?' in href && '&' !in id
    requires Before(href, '#') == href && Before(ShareUrl(href, id), '#') == ShareUrl(href, id)
    requires SearchOf(href) != "" && QueryGet(SearchOf(href), "c") == None
    ensures QueryGet(SearchOf(ShareUrl(href, id)), "c") == Some(id)
  {
    var param := "c=" + id;
    var head, query := Before(href, '?'), After(href, '?');
    BeforeSepAfter(href, '?');
    assert SearchOf(href) == "?" + query;
    QueryOfSearch(query, "c");
    var tail := query + ['&'] + param;
    ShareUrlShape(href, id, head, query);
    SearchAfterMark(head, tail);
    QueryOfSearch(tail, "c");
    AppendedPairFound(query, id);
  }

  /** A `c=<id>` pair behind a query without a `c` pair is the one found. */
  lemma AppendedPairFound(query: string, id: string)
    requires '&' !in id && FirstValue(Split(query, '&'), "c") == None
    ensures FirstValue(Split(query + ['&'] + ("c=" + id), '&'), "c") == Some(id)
  {
    SkipFirstQuery(query, "c=" + id, "c");
    SinglePair("c", id);
  }

  /** The shared link of an address `head?query` is `head?query&c=<id>`. */
  lemma ShareUrlShape(href: string, id: string, head: string, query: string)
    requires href == head + ['?'] + query && SearchOf(href) != ""
    ensures ShareUrl(href, id) == head + ['?'] + (query + ['&'] + ("c=" + id))
  {
  }

  /** The search part of `head?tail`, when `head` holds no `?` and there is no fragment, is `?tail`. */
  lemma SearchAfterMark(head: string, tail: string)
    requires '?' !in head && tail != ""
    requires Before(head + ['?'] + tail, '#') == head + ['?'] + tail
    ensures SearchOf(head + ['?'] + tail) == "?" + tail
  {
    BeforeAfter(head, tail, '?');
  }

  /** Reading a parameter from `?query` reads it from the pairs of `query`. */
  lemma QueryOfSearch(query: string, key: string)
    ensures QueryGet("?" + query, key) == FirstValue(Split(query, '&'), key)
  {
    assert ("?" + query)[1..] == query;
  }

  /** Pairs without a match in front of `&` do not hide the pairs after it. */
  lemma SkipFirstQuery(query: string, rest: string, key: string)
    requires FirstValue(Split(query, '&'), key) == None
    ensures FirstValue(Split(query + ['&'] + rest, '&'), key) == FirstValue(Split(rest, '&'), key)
  {
    SplitConcat(query, rest, '&');
    FirstValueAppend(Split(query, '&'), Split(rest, '&'), key);
  }
}

=== FILE: wrappers.dfy ===
/** Small failure-carrying datatypes shared by the whole model. */
module Wrappers {

  /** A value that may be absent: JavaScript's `null` / `undefined` for an optional field. */
  datatype Option<+T> = None | Some(value: T) {

    /** The carried value, or `default` when absent (JavaScript's `??`). */
    function GetOr(default: T): T {
      match this
      case Some(v) => v
      case None => default
    }
  }

  /** The outcome of an operation that can throw: `Ok` or the thrown error's message. */
  datatype Result<+T> = Ok(value: T) | Err(message: string)

  /**
   * The settled promise of a hardware-wallet library call.
   * `Success` is a resolved promise with `success: true`, `Failure` a resolved promise with
   * `success: false` and `payload.error`, and `Thrown` a rejected promise with `error.message`.
   */
  datatype Reply<+T> = Success(payload: T) | Failure(error: string) | Thrown(message: string)
}
